=== FILE: README.md ===
# UCS-2 text loader for UEFI, modelled in Dafny

The application is a UEFI image (`src/efi_main.c`). It does the following, in order:

1. It resets the console input device.
2. It finds its loaded image.
3. It creates the log file `\result.txt` on the boot volume.
4. It writes the boot device's path to that log.
5. It reads `\EFI\BOOT\TEXT\UCS-2.TXT` into a pool buffer. It first probes the file information size with a zero-size `GetInfo`, then reads FileSize bytes.
6. It prints three lines on the console and writes them, narrowed to bytes, to the log.
7. It closes the log and frees the buffer.
8. It waits for a key and cold-resets the platform with EFI_SUCCESS.

Every failure goes to `error_print`. That function prints a message and, when it has one, the status, then calls `reset_system(EFI_SUCCESS)`. `reset_system` waits for a key (`read_key`) and cold-resets the platform.

The firmware is a value, `Firmware.Machine`. It holds:

- a cursor into a script of answers (`Env.answers`), where each fallible service returns the next answer;
- a separate script for `ReadKeyStroke` (`Env.keys`);
- counters for the file handles and pool allocations handed out;
- the sets of handles still open and pools still live;
- a trace of every call with the status it returned;
- a `halted` flag that `ResetSystem` sets.

Every service requires `!halted`, so the verifier checks that nothing runs after a reset.

The model has three layers:

- **Pure functions of the firmware state.** They live in modules `Text`, `Funnel`, `Loader` and `Boot`, and each one follows the branches of one C function.
- **Methods of the class `Application.App`.** Its fields are the C globals (`IH`, `loaded_image`, `write_file`, `buffer_size`, `buffer` as an array of bytes) and the firmware. Each method runs the C function step by step and is proved equal to the pure function.
- **Whole runs of `efi_main`, in module `Pipeline`.** This covers the early exits of `init`, and a typical run in which every call is granted except the size probe, which reports BufferTooSmall.

`efi_main` is modelled from any running, well-formed firmware state, not only from power-on.

Status codes: `Status.Status` distinguishes EFI_SUCCESS, warnings, EFI_BUFFER_TOO_SMALL and other errors. `IsError` is EFI_ERROR, which holds for BufferTooSmall and errors and not for warnings. The source tests with `EFI_ERROR` in most places and against `EFI_SUCCESS` in `init` and `read_key`, and the model keeps each test as written.

The model follows the code, including where its behaviour is not what one might expect:

- Handles are not closed on error paths. When `load_file2` returns an error, its root handle and source file handle stay open. The volume root it opens is never closed, even on success.
- Without a console input device, `read_key` returns at once, so the platform resets right after the message. It does not wait.
- `open_print_info` acquires the boot device's file system first. If `load_file` acquires it a second time (line 123) and that fails, the device path line has already been written to the log.
- `write_print_info` appends `\r\n` to the formatted text, and the text of each of its four calls (lines 37, 39, 41 and 224) ends in `\n`; at line 41 the `\n` comes from the `%s` argument. So, if SPrint copies a `\n` of its format or of a `%s` argument unchanged, all four log lines end in LF CR LF, not just CR LF.
- The read buffer is `FileSize + 1` bytes, not FileSize plus one code unit (see Findings).

## Model

| member | source | states |
|---|---|---|
| Text.StrLen | src/efi_main.c:377 | StrLen is the index of the first NUL code unit: every unit before it is non-zero |
| Text.StrLenA | src/efi_main.c:403 | strlena is the index of the first NUL byte: every byte before it is non-zero |
| Text.Narrow | src/efi_main.c:381 | each output byte is the low byte `wide[i] & 0xff` of the code unit at the same index; same length |
| Text.NarrowLossless | src/efi_main.c:381 | widening the narrowed string gives the input back exactly when every code unit is below 0x100 (both directions) |
| Text.NarrowWiden | src/efi_main.c:381 | narrowing undoes zero-extension: no byte is lost |
| Text.ConvertToAscii | src/efi_main.c:375-385 | for every index below StrLen(wide) the output byte is the low byte of the input unit, a NUL follows at StrLen(wide), nothing after it changes; the caller must provide StrLen(wide) + 1 bytes |
| Text.NarrowedLength | src/efi_main.c:400-403 | strlena of the narrowed line is at most the wide length, equals it exactly when no code unit has a zero low byte (so it is strictly less when one does), and no earlier unit has a zero low byte |
| Text.StrLenAOfConverted | src/efi_main.c:400-403 | strlena of the buffer convert_to_ascii filled equals strlena of the narrowed line, and the bytes before it are the narrowed line's |
| Text.Arg | src/efi_main.c:392 | a `%s` argument is read up to its first NUL: the result is a NUL-free prefix that ends at the argument's first NUL or at its end |
| Text.SPrintText | src/efi_main.c:392 | SPrint leaves fewer than `capacity` units, none NUL, a prefix of the formatted text, all of it when it fits |
| Text.AsWrittenLine | src/efi_main.c:392-393 | SPrint into the whole 256-unit buffer keeps a prefix of the text of fewer than 256 units, and StrCat puts the terminator after it; the same at lines 397-398 |
| Text.AsWrittenLineOverruns | src/efi_main.c:391-398 | with SPrint given the whole 256-unit buffer, the line and its NUL fit only when the text leaves room for the terminator; 254 units of text plus CR LF overrun |
| Text.RenderLine | src/efi_main.c:391-398 | the corrected rendering always fits 256 units, ends in the terminator, keeps a prefix of the text, and is text plus terminator whenever that fits |
| Text.SPrintLine | src/efi_main.c:391-393 | after SPrint and StrCat the wide buffer holds RenderLine and a NUL |
| Firmware.Machine.OpenVolume | src/efi_main.c:235-237 | the root handle returned is the next handle number; well-formedness is kept |
| Firmware.Machine.Open | src/efi_main.c:244-247 | the file handle returned is the next handle number; well-formedness is kept |
| Firmware.Machine.GetInfo | src/efi_main.c:257 | the size reported is the file information size on BufferTooSmall, and the size passed in otherwise; no handle is opened or closed, no pool allocated or freed, and well-formedness is kept |
| Firmware.Machine.AllocatePool | src/efi_main.c:267 | a granted pool is the next pool number; well-formedness is kept |
| Firmware.Machine.DevicePathToStr | src/efi_main.c:217 | a granted string is the next pool number; well-formedness is kept |
| Firmware.Machine.Read | src/efi_main.c:300 | the bytes delivered are a prefix of the file of at most the requested size, and none on an error |
| Firmware.Machine.Close | src/efi_main.c:311 | well-formedness is kept |
| Firmware.Machine.ReadKeyStroke | src/efi_main.c:90 | a failed poll consumes a scripted key status |
| Funnel.PollKeys | src/efi_main.c:87-92 | the poll loop only adds to the trace, changes no handle or pool, and ends with a successful ReadKeyStroke |
| Funnel.PollKeysEvents | src/efi_main.c:87-92 | every call the loop adds is a ReadKeyStroke, and every one but the last failed |
| Funnel.ReadKey | src/efi_main.c:81-94 | returns the state unchanged without ConIn; otherwise ends with a successful ReadKeyStroke |
| Funnel.ResetSystem | src/efi_main.c:96-101 | the platform is halted and the last call is ResetSystem(EfiResetCold, status); only the trace and keys changed |
| Funnel.ResetSystemExtends | src/efi_main.c:96-101 | the earlier trace is kept, and every call before the reset is a key poll |
| Funnel.ErrorPrint | src/efi_main.c:103-113 | prints msg first; the next call is the status print exactly when a status is given, with that status; ends in the EFI_SUCCESS cold reset |
| Funnel.ErrorPrintReports | src/efi_main.c:103-113 | every call error_print adds is a print, a status print, a key poll or the reset: no file, pool or protocol service |
| Loader.AsWrittenReadBufferSize | src/efi_main.c:289-298 | the buffer of FileSize + 1 bytes holds the file, and the two-byte terminator at unit FileSize/2 fits in it exactly when FileSize is odd |
| Loader.AsWrittenHelloOverrun | src/efi_main.c:289-298 | a 10-byte file gets an 11-byte buffer and the terminator store writes bytes 10 and 11, past its end |
| Loader.ReadBufferSize | src/efi_main.c:289-298 | the corrected buffer of FileSize plus one code unit holds the file and the terminator for every size, and for an even size ends right after the terminator |
| Loader.TerminatorAfterFile | src/efi_main.c:298 | the terminator at unit FileSize/2 lies after the file's bytes exactly when the size is even; for an odd size it covers the file's last byte |
| Loader.Terminate | src/efi_main.c:298 | `buffer[buffer_size / 2] = 0` zeroes the two bytes at offset 2*(FileSize/2) and changes no other byte |
| Loader.LoadFile2 | src/efi_main.c:230-323 | every return: the trace grows, a reset is the EFI_SUCCESS one, no earlier handle is closed, success leaves exactly one new live pool (the one `buffer` holds), any other return leaves the live pools as they were, so the info buffer is freed; a returned status is EFI_SUCCESS or an error |
| Loader.QueryInfo | src/efi_main.c:254-265 | as LoadFile2, and the source file handle is closed exactly on success |
| Loader.FetchInfo | src/efi_main.c:267-287 | as LoadFile2; a failed second GetInfo frees the info buffer, so the live pools are unchanged |
| Loader.ReadWhole | src/efi_main.c:289-298 | as LoadFile2, from the read buffer allocation on |
| Loader.ReadInto | src/efi_main.c:300-322 | always returns; success keeps the buffer and closes the file; a Read or Close error frees the buffer, sets it to NULL and returns an error |
| Loader.OpensThenQueries | src/efi_main.c:235-252 | with OpenVolume and Open granted, the root and file are the next two handles and load_file2 continues with the probe on that file |
| Loader.ProbeErrorReturnsBeforeAllocation | src/efi_main.c:254-265 | a probe error other than BufferTooSmall is returned as is, with no allocation in the trace and the globals untouched |
| Loader.ProbeFallsThroughToAllocation | src/efi_main.c:257-267 | a BufferTooSmall or non-error probe is followed by the info allocation of the probed size (or 0 when the probe did not fail) |
| Loader.FetchStart | src/efi_main.c:267-272 | the info stage keeps the trace and its first call allocates the probed size |
| Loader.QueryStart | src/efi_main.c:257-267 | the probe is GetInfo with size 0, followed by the info allocation |
| Loader.QueriesThenReads | src/efi_main.c:274-287 | with both queries granted the info buffer is freed and the read stage runs with FileSize |
| Loader.ReadStart | src/efi_main.c:289-300 | the read buffer is FileSize plus one code unit (the corrected size) and Read asks for FileSize bytes |
| Loader.ReadBufferIsSizedFromFileSize | src/efi_main.c:284-300 | after both GetInfo calls succeed, load_file2 allocates from FileSize and reads FileSize bytes |
| Loader.ReadStageError | src/efi_main.c:300-320 | a Read or Close error returns that status, sets buffer to NULL and frees the read buffer last |
| Loader.ReadOrCloseErrorClearsBuffer | src/efi_main.c:300-320 | the same for the whole of load_file2: the first failing of Read and Close is returned, the buffer is NULL, the pools as before |
| Loader.ReadWholeHoldsFile | src/efi_main.c:296-309 | a successful read stage holds the bytes read, and the file plus a zero code unit for an even size read in full |
| Loader.SuccessHoldsFileAndTerminator | src/efi_main.c:296-322 | a successful load_file2 holds the file in `buffer` |
| Loader.HandlesLeftOpen | src/efi_main.c:232-322 | the root handle is never closed; the source file handle is closed exactly on the successful return |
| Boot.Unit | src/efi_main.c:37 | a code unit is zero exactly when both bytes are; its low byte is the first byte |
| Boot.Units | src/efi_main.c:37 | the buffer read as CHAR16 has one unit per byte pair, zero exactly where both bytes are |
| Boot.LogBytes | src/efi_main.c:397-403 | the bytes written are a prefix of the narrowed CR LF line, fewer than 256, none NUL, and they stop at the line's first NUL byte or at its end |
| Boot.WritePrintInfo | src/efi_main.c:387-412 | no-op without a file or parameter; otherwise one Print and one Write, and a Write error halts through error_print; handles and pools unchanged |
| Boot.WritePrintInfoEvents | src/efi_main.c:387-412 | the console gets the LF rendering, then the file gets LogBytes of the CR LF rendering; a failed Write is followed by error_print's `Write() failed.` message |
| Boot.WriteLog | src/efi_main.c:405-410 | the Write halts the run exactly when it fails |
| Boot.ClosePrintInfo | src/efi_main.c:414-425 | no-op without a file; otherwise Close first, a failure halts, success releases the handle |
| Boot.OpenPrintInfo | src/efi_main.c:325-373 | returns the log handle (the second new handle) with it open, or halts; live pools unchanged |
| Boot.OpenLog | src/efi_main.c:354-372 | the log is created, the root closed, or the run halts |
| Boot.OpenPrintInfoEvents | src/efi_main.c:325-373 | a returning open_print_info made exactly its four calls, none failing |
| Boot.PrintDevicePath | src/efi_main.c:199-228 | no handle closed; if it returns, the device path string is freed |
| Boot.PrintDevicePathFirst | src/efi_main.c:203-210 | print_device_path's first call opens the device path protocol of the handle it is given |
| Boot.LoadFile | src/efi_main.c:115-142 | a return means the source is loaded with success into exactly one new live pool; otherwise halted |
| Boot.LoadSource | src/efi_main.c:121-142 | the same, after the device path line |
| Boot.Init | src/efi_main.c:53-79 | IH is set; if init returns, loaded_image, a newly opened write_file and a newly allocated buffer are set |
| Boot.Start | src/efi_main.c:66-78 | the same, from the LoadedImageProtocol call on |
| Boot.OpenFiles | src/efi_main.c:76-78 | the globals on return: a newly opened write_file and a newly allocated buffer, the only new live pool |
| Boot.LogOpenedBeforeLoad | src/efi_main.c:76-78 | for every firmware answer, open_print_info runs first; if it halts nothing follows, and otherwise the next call is load_file's device path OpenProtocol |
| Boot.Finish | src/efi_main.c:37-48 | the tail of efi_main always ends in the EFI_SUCCESS cold reset |
| Boot.CloseAndReset | src/efi_main.c:43-48 | close, FreePool and reset end in the EFI_SUCCESS cold reset; the buffer's pool is freed exactly when the Close succeeds, and no other pool changes |
| Boot.WriteStage | src/efi_main.c:405-410 | after a failed Write only reports follow; a returning write_print_info made no failed call |
| Boot.CloseStage | src/efi_main.c:414-425 | after a failed Close only reports follow; a returning close_print_info made no failed call |
| Boot.FinishStopsAtFailure | src/efi_main.c:37-48 | for every firmware answer, once a log Write or the Close fails, every later call is a report: no further line, Close or FreePool |
| Boot.EfiMain | src/efi_main.c:33-51 | from any running state, every run ends with ResetSystem(EfiResetCold, EFI_SUCCESS) as its last call, well formed |
| Application.App.constructor | src/efi_main.c:10-16 | the globals start NULL and zero |
| Application.App.ReadKey | src/efi_main.c:81-94 | the poll loop computes Funnel.ReadKey |
| Application.App.ResetSystem | src/efi_main.c:96-101 | computes Funnel.ResetSystem |
| Application.App.ErrorPrint | src/efi_main.c:103-113 | computes Funnel.ErrorPrint |
| Application.App.WritePrintInfo | src/efi_main.c:387-412 | the two renders into 256-unit arrays compute Boot.WritePrintInfo |
| Application.App.LogLine | src/efi_main.c:397-403 | convert_to_ascii and strlena on arrays give exactly Boot.LogBytes |
| Application.App.ClosePrintInfo | src/efi_main.c:414-425 | computes Boot.ClosePrintInfo |
| Application.App.OpenPrintInfo | src/efi_main.c:325-373 | computes Boot.OpenPrintInfo on loaded_image's device |
| Application.App.PrintDevicePath | src/efi_main.c:199-228 | computes Boot.PrintDevicePath, writing to write_file |
| Application.App.LoadFile2 | src/efi_main.c:230-252 | firmware, buffer_size and buffer end as Loader.LoadFile2 says, and the status returned is its status |
| Application.App.QueryInfo | src/efi_main.c:254-265 | the same for Loader.QueryInfo |
| Application.App.FetchInfo | src/efi_main.c:267-287 | the same for Loader.FetchInfo; buffer_size becomes FileSize |
| Application.App.ReadWhole | src/efi_main.c:289-298 | the same for Loader.ReadWhole; the array holds the stale bytes and the terminator |
| Application.App.ReadInto | src/efi_main.c:300-322 | the same for Loader.ReadInto; Read overwrites the array's start |
| Application.App.LoadFile | src/efi_main.c:115-142 | computes Boot.LoadFile |
| Application.App.LoadSource | src/efi_main.c:121-142 | computes Boot.LoadSource |
| Application.App.Init | src/efi_main.c:53-79 | computes Boot.Init, globals included |
| Application.App.Start | src/efi_main.c:66-78 | computes Boot.Start |
| Application.App.OpenFiles | src/efi_main.c:76-78 | computes Boot.OpenFiles |
| Application.App.EfiMain | src/efi_main.c:33-51 | computes Boot.EfiMain; when init returns, `buffer` ends NULL exactly when its pool was freed |
| Application.App.Finish | src/efi_main.c:37-48 | computes Boot.Finish from the globals; `buffer` is NULL exactly when its pool was freed, and otherwise unchanged |
| Application.App.CloseAndReset | src/efi_main.c:43-48 | computes Boot.CloseAndReset and sets `buffer` to NULL exactly when it frees its pool |
| Pipeline.NoConsoleInput | src/efi_main.c:61-63 | without ConIn the run is the message print and the reset, nothing else |
| Pipeline.ConsoleResetFails | src/efi_main.c:61-63 | a ConIn reset that is not EFI_SUCCESS (a warning included) is followed by the message, the status, key polls and the reset |
| Pipeline.ReadCount | src/efi_main.c:300 | Read delivers FileSize bytes, or the whole file when it is shorter |
| Pipeline.SourceBytes | src/efi_main.c:296-309 | the read buffer is FileSize plus one code unit and starts with the bytes read |
| Pipeline.WritePrintInfoGranted | src/efi_main.c:387-412 | a granted write_print_info adds exactly the console line and the log line |
| Pipeline.ClosePrintInfoGranted | src/efi_main.c:414-425 | a granted close releases the handle and adds one Close |
| Pipeline.OpenPrintInfoGranted | src/efi_main.c:325-373 | granted, open_print_info returns the new log handle and makes its four calls |
| Pipeline.PrintDevicePathGranted | src/efi_main.c:199-228 | granted, print_device_path makes its five calls and frees its string |
| Pipeline.ReadWholeGranted | src/efi_main.c:289-322 | granted, the read stage allocates, reads, closes and holds SourceBytes |
| Pipeline.InfoGranted | src/efi_main.c:254-287 | after a BufferTooSmall probe and two granted calls, the probe, info allocation, second GetInfo and FreePool are made and the read stage runs |
| Pipeline.QueryInfoTypical | src/efi_main.c:254-322 | a BufferTooSmall probe and granted calls give the probe, info alloc, query, free and read, in order |
| Pipeline.LoadFile2Typical | src/efi_main.c:230-323 | a typical load_file2 succeeds with the source in a new pool, leaves the root open and makes its nine calls |
| Pipeline.LoadSourceTypical | src/efi_main.c:121-142 | a typical load_file after the device path opens the file system, then runs load_file2 |
| Pipeline.LoadFileTypical | src/efi_main.c:115-142 | a typical load_file writes the device path line, then loads the source |
| Pipeline.OpenFilesTypical | src/efi_main.c:76-78 | in a typical init the log is opened before load_file, and both are as above |
| Pipeline.StartTypical | src/efi_main.c:66-78 | the LoadedImageProtocol call comes before the log and the load |
| Pipeline.InitTypical | src/efi_main.c:53-79 | a typical init's whole call sequence and the globals it leaves |
| Pipeline.LogLinesGranted | src/efi_main.c:37-41 | the three log lines, in order, when granted; each returns with the log still open and no handle or pool changed |
| Pipeline.TailGranted | src/efi_main.c:43-48 | close, FreePool of the buffer, then only key polls before the reset; log closed, buffer freed |
| Pipeline.FinishTypical | src/efi_main.c:37-48 | the three writes, close and FreePool in that order, then key polls and the reset |
| Pipeline.TypicalRun | src/efi_main.c:33-51 | a typical efi_main: init's calls, the three writes, close, FreePool, key polls, reset; every pool freed, and every handle closed except the load's root |

## Left out

- Print formatting is not modelled. The console `Print` and the status print are recorded as events. `SPrint` is modelled only for the one `%s` template shape the application uses. `Print(buffer)` at line 395 passes the rendered line as its format string, so a `%` in the source file's text (line 37) is read by Print as a conversion; the model records the call as a plain `Event.Print` of the line.
- DevicePathToStr and print_status_msg are opaque firmware inputs (`Env.devicePathText`, `Env.statusText`). The device path's own structure is not part of this model.
- The `#else` branch of `load_file` (lines 144-195) is not modelled. It is compiled out because `BOOT_PARTITION_FILE_ACCESS` is 1.
- InitializeLib and the system table are not modelled. Firmware calls are the services of `Firmware.Machine`.
- The key wait is finite in the model, because `Env.keys` is a finite script after which ReadKeyStroke succeeds. A console that never delivers a key is not modelled.
- The contents of freshly allocated pool memory are an input (`Env.stale`).
- `FileSize` (UINT64) and `buffer_size` (UINTN) are unbounded `nat`s in the model, so the wrap of `buffer_size + 1` at line 289 for a size of 2^64 - 1 does not arise.
- Read reports a size even on error. The model keeps `buffer_size` as FileSize there, because the buffer is freed and the value is never used.
- The handle and image arguments of OpenProtocol (`IH`, attributes) are not recorded beyond the handle being opened.
- Application.App.LoadFile: requires `buffer` to be NULL on entry. Its only caller is `init`, at a point where that always holds.
- Application.App.Init: requires the static initial globals, as when the image is entered once.
- Application.App.ReadKey: the method computes the same firmware state as the C loop, but the loop terminates only because the key script is finite (see above).
- Loader.ReadBufferSize: allocates FileSize + 2 bytes, the corrected size, rather than the FileSize + 1 of the source (see Findings). For an odd-size file the terminator lies under the file's last byte, which Read then overwrites, so no zero code unit follows the text, as in the source.
- Text.RenderLine: the model renders into the buffer with the terminator's room reserved (see Findings). The source's overrun is only exhibited, not executed.
- Text.Arg: a `%s` argument with no NUL ends at the end of its value. The source's buffer at line 37 has no terminator inside it for an odd FileSize (see Findings), so SPrint reads past it; that over-read is not modelled.
- The NULL checks of `fmt` (line 389) and a NULL return of print_status_msg (line 39) are not modelled. Every call passes a literal format, and the status text is an input that is always present.
- Application.App.EfiMain: states the firmware and the `buffer` global it leaves. `IH` is stated by Application.App.Init, and Application.App.Finish cannot change it.
- Boot.WritePrintInfo: the source renders twice into one buffer, reusing it. The model renders each line into its own value, and the method `Application.App.WritePrintInfo` reuses one array for both renders.

## Findings

| source | as written | input that shows it | evidently intended | confidence | as-written member | corrected member |
|---|---|---|---|---|---|---|
| src/efi_main.c:289-298 | the read buffer is `buffer_size + 1` bytes, then a CHAR16 zero is stored at unit `buffer_size / 2`, bytes 2*(FileSize/2) and 2*(FileSize/2)+1 | a 10-byte file (`Hello` in UCS-2): 11-byte buffer, the store writes bytes 10 and 11 | one extra code unit, FileSize + 2 bytes, so the terminator always fits | not executed | Loader.AsWrittenHelloOverrun | Loader.ReadBufferSize |
| src/efi_main.c:391-398 | SPrint may fill 255 of the 256 units, then StrCat appends `\n` or `\r\n` into the same buffer | a formatted line of 254 or more units, e.g. a long source file, and the CR LF terminator | SPrint limited to the room StrCat still needs, so the line and its NUL fit | not executed | Text.AsWrittenLineOverruns | Text.RenderLine |

=== FILE: app.dfy ===
/** The application as it runs: its globals are the fields of one object,
    and each of its functions is a method that updates them and the
    firmware, proved to do what the matching function of Boot, Loader or
    Funnel describes. */
module Application {
  import opened Status
  import opened Text
  import opened Firmware
  import Funnel
  import Loader
  import Boot

  class App {
    /** The firmware and the boot volume for this run. */
    const env: Env
    /** The firmware's state. */
    var fw: Machine
    var ih: nat                   // IH
    var loadedImage: Option<nat>  // loaded_image, by the DeviceHandle it reports
    var writeFile: Option<nat>    // write_file
    var bufferSize: nat           // buffer_size
    var buffer: array?<Char8>     // buffer: the pool it points to, as bytes
    var bufferPool: nat           // the pool `buffer` was allocated as

    /** `buffer` as a value. */
    ghost function Buffer(): Option<Loader.Block>
      reads this`buffer, this`bufferPool, buffer
    {
      if buffer == null then None else Some(Loader.Block(bufferPool, buffer[..]))
    }

    /** `buffer` and the pool it was allocated as are `b`. */
    ghost predicate Holds(b: Option<Loader.Block>)
      reads this`buffer, this`bufferPool, buffer
    {
      (buffer == null <==> b.None?) && (b.Some? ==> bufferPool == b.value.pool && buffer[..] == b.value.bytes)
    }

    /** The globals of the application as Boot.State describes them. */
    ghost function Globals(): Boot.State
      reads this, buffer
    {
      Boot.State(fw, ih, loadedImage, writeFile, bufferSize, Buffer())
    }

    /** The image is loaded: globals at their static initial values, firmware
        fresh. */
    constructor (env: Env)
      ensures this.env == env && fw == PowerOn
      ensures ih == 0 && loadedImage == None && writeFile == None
      ensures bufferSize == 0 && buffer == null
    {
      this.env := env;
      fw := PowerOn;
      ih := 0;
      loadedImage := None;
      writeFile := None;
      bufferSize := 0;
      buffer := null;
      bufferPool := 0;
    }

    /** read_key(): with a console input device, poll ReadKeyStroke until it
        succeeds. */
    method ReadKey()
      requires !fw.halted
      modifies this`fw
      ensures fw == Funnel.ReadKey(env, old(fw))
    {
      if env.conIn {
        ghost var goal := Funnel.PollKeys(env, fw);
        var (status, m) := fw.ReadKeyStroke(env);
        while status != Success
          invariant !m.halted
          invariant status == Success ==> m == goal
          invariant status != Success ==> Funnel.PollKeys(env, m) == goal && m.keysRead <= |env.keys|
          decreases |env.keys| - m.keysRead
        {
          status, m := m.ReadKeyStroke(env).0, m.ReadKeyStroke(env).1;
        }
        fw := m;
      }
    }

    /** reset_system(status): read_key, then a cold reset; nothing runs after. */
    method ResetSystem(status: Status)
      requires !fw.halted
      modifies this`fw
      ensures fw == Funnel.ResetSystem(env, old(fw), status)
    {
      ReadKey();
      fw := fw.ResetSystem(ResetCold, status);
    }

    /** error_print(msg, status). */
    method ErrorPrint(msg: seq<Char16>, status: Option<Status>)
      requires !fw.halted
      modifies this`fw
      ensures fw == Funnel.ErrorPrint(env, old(fw), msg, status)
    {
      fw := fw.Print(msg);
      if status.Some? {
        fw := fw.PrintStatus(status.value);
      }
      ResetSystem(Success);
    }

    /** write_print_info(file, fmt, param): render into a 256-unit wide
        buffer and print it, then write the CR LF rendering, narrowed, to the
        file. */
    method WritePrintInfo(file: Option<nat>, t: Template, param: Option<seq<Char16>>)
      requires !fw.halted && fw.WellFormed()
      requires file.Some? ==> file.value in fw.open
      modifies this`fw
      ensures fw == Boot.WritePrintInfo(env, old(fw), file, t, param)
      ensures fw.live == old(fw.live)
    {
      if file.Some? && param.Some? {
        var wide := new Char16[LineCapacity];
        SPrintLine(wide, Format(t, param.value), L("\n"));
        fw := fw.Print(wide[..StrLen(wide[..])]);
        var size, ascii := LogLine(wide, t, param.value);
        var (s, m) := fw.Write(env, file.value, ascii[..size]);
        fw := m;
        if IsError(s) {
          ErrorPrint(Boot.WriteFailedMsg, Some(s));
        }
      }
    }

    /** The second half of write_print_info's rendering: SPrint and StrCat of
        CR LF into `wide`, convert_to_ascii into a 256-byte buffer, and
        strlena of it, the byte count handed to Write. */
    static method LogLine(wide: array<Char16>, t: Template, param: seq<Char16>) returns (size: nat, ascii: array<Char8>)
      requires wide.Length == LineCapacity
      modifies wide
      ensures size <= ascii.Length && ascii[..size] == Boot.LogBytes(t, param)
    {
      SPrintLine(wide, Format(t, param), L("\r\n"));
      ascii := new Char8[LineCapacity];
      ConvertToAscii(ascii, wide);
      StrLenAOfConverted(ascii[..], RenderLine(Format(t, param), L("\r\n")));
      size := StrLenA(ascii[..]);
    }

    /** close_print_info(file). */
    method ClosePrintInfo(file: Option<nat>)
      requires !fw.halted && fw.WellFormed()
      requires file.Some? ==> file.value in fw.open
      modifies this`fw
      ensures fw == Boot.ClosePrintInfo(env, old(fw), file)
      ensures fw.live == old(fw.live)
    {
      if file.Some? {
        var (s, m) := fw.Close(env, file.value);
        fw := m;
        if IsError(s) {
          ErrorPrint(Boot.CloseFailedMsg, Some(s));
        }
      }
    }

    /** open_print_info(L"\\result.txt"): returns the log file's handle. */
    method OpenPrintInfo() returns (file: Option<nat>)
      requires !fw.halted && fw.WellFormed() && loadedImage.Some?
      modifies this`fw
      ensures (file, fw) == Boot.OpenPrintInfo(env, old(fw), old(loadedImage).value)
    {
      file := None;
      var (sFs, m1) := fw.OpenProtocol(env, loadedImage.value, FileSystemProtocol);
      fw := m1;
      if IsError(sFs) {
        ErrorPrint(Boot.FileSystemFailedMsg, Some(sFs));
        return;
      }
      var (sVolume, root, m2) := fw.OpenVolume(env);
      fw := m2;
      if IsError(sVolume) {
        ErrorPrint(Boot.OpenVolumeFailedMsg, Some(sVolume));
        return;
      }
      var (sOpen, f, m3) := fw.Open(env, root, Boot.LogPath, ReadWriteCreate);
      fw := m3;
      if IsError(sOpen) {
        ErrorPrint(Boot.OpenFailedMsg, Some(sOpen));
        return;
      }
      var (sClose, m4) := fw.Close(env, root);
      fw := m4;
      if IsError(sClose) {
        ErrorPrint(Boot.CloseFailedMsg, Some(sClose));
        return;
      }
      file := Some(f);
    }

    /** print_device_path(handle). */
    method PrintDevicePath(handle: nat)
      requires !fw.halted && fw.WellFormed()
      requires writeFile.Some? ==> writeFile.value in fw.open
      modifies this`fw
      ensures fw == Boot.PrintDevicePath(env, old(fw), handle, old(writeFile))
    {
      var (s, m1) := fw.OpenProtocol(env, handle, DevicePathProtocol);
      fw := m1;
      if IsError(s) {
        ErrorPrint(Boot.DevicePathFailedMsg, Some(s));
        return;
      }
      var (p, m2) := fw.DevicePathToStr(env);
      fw := m2;
      if p.None? {
        ErrorPrint(Boot.DevicePathToStrFailedMsg, None);
        return;
      }
      WritePrintInfo(writeFile, Boot.DevicePathLine, Some(env.devicePathText));
      if fw.halted {
        return;
      }
      fw := fw.FreePool(p.value);
    }

    /** load_file2(efi_simple_file_system): read the source file into a new
        pool buffer held by `buffer`, its size in `buffer_size`. Returns the
        status; when it does not return, error_print has reset the platform. */
    method LoadFile2() returns (status: Status)
      requires !fw.halted && fw.WellFormed()
      modifies this`fw, this`bufferSize, this`buffer, this`bufferPool
      ensures var l := Loader.LoadFile2(env, old(fw), old(bufferSize), old(Buffer()));
        && fw == l.m && bufferSize == l.size && Holds(l.buffer)
        && (l.status.Some? ==> status == l.status.value)
    {
      var (sVolume, root, m1) := fw.OpenVolume(env);
      fw := m1;
      if IsError(sVolume) {
        return sVolume;
      }
      var (sOpen, file, m2) := fw.Open(env, root, Loader.SourcePath, ReadOnly);
      fw := m2;
      if IsError(sOpen) {
        return sOpen;
      }
      status := QueryInfo(file);
    }

    /** load_file2 from the GetInfo size probe on. */
    method QueryInfo(file: nat) returns (status: Status)
      requires !fw.halted && fw.WellFormed() && file in fw.open
      modifies this`fw, this`bufferSize, this`buffer, this`bufferPool
      ensures var l := Loader.QueryInfo(env, old(fw), file, old(bufferSize), old(Buffer()));
        && fw == l.m && bufferSize == l.size && Holds(l.buffer)
        && (l.status.Some? ==> status == l.status.value)
    {
      var (sProbe, infoSize, m3) := fw.GetInfo(env, file, 0);
      fw := m3;
      if sProbe != BufferTooSmall && IsError(sProbe) {
        return sProbe;
      }
      status := FetchInfo(file, infoSize);
    }

    /** load_file2 from the EFI_FILE_INFO allocation on: on success
        `buffer_size` becomes FileSize. */
    method FetchInfo(file: nat, infoSize: nat) returns (status: Status)
      requires !fw.halted && fw.WellFormed() && file in fw.open
      modifies this`fw, this`bufferSize, this`buffer, this`bufferPool
      ensures var l := Loader.FetchInfo(env, old(fw), file, infoSize, old(bufferSize), old(Buffer()));
        && fw == l.m && bufferSize == l.size && Holds(l.buffer)
        && (l.status.Some? ==> status == l.status.value)
    {
      status := Success;
      var (info, m4) := fw.AllocatePool(env, infoSize);
      fw := m4;
      if info.None? {
        ErrorPrint(Loader.AllocFailedMsg, None);
        return;
      }
      var (sInfo, _, m5) := fw.GetInfo(env, file, infoSize);
      fw := m5;
      if IsError(sInfo) {
        fw := fw.FreePool(info.value);
        return sInfo;
      }
      bufferSize := env.fileSize;
      fw := fw.FreePool(info.value);
      status := ReadWhole(file);
    }

    /** load_file2 once `buffer_size` holds FileSize: allocate the buffer and
        store the terminator. */
    method ReadWhole(file: nat) returns (status: Status)
      requires !fw.halted && fw.WellFormed() && file in fw.open
      modifies this`fw, this`bufferSize, this`buffer, this`bufferPool
      ensures var l := Loader.ReadWhole(env, old(fw), file, old(bufferSize), old(Buffer()));
        && fw == l.m && bufferSize == l.size && Holds(l.buffer)
        && (l.status.Some? ==> status == l.status.value)
    {
      status := Success;
      var (p, m7) := fw.AllocatePool(env, Loader.ReadBufferSize(bufferSize));
      fw := m7;
      if p.None? {
        ErrorPrint(Loader.AllocFailedMsg, None);
        return;
      }
      var a := new Char8[Loader.ReadBufferSize(bufferSize)];
      forall i | 0 <= i < a.Length {
        a[i] := env.stale(i);
      }
      assert a[..] == Loader.Stale(env, a.Length);
      var t := Loader.TerminatorOffset(bufferSize);
      a[t] := 0;
      a[t + 1] := 0;
      assert a[..] == Loader.Terminate(Loader.Stale(env, a.Length), bufferSize);
      buffer, bufferPool := a, p.value;
      status := ReadInto(file);
    }

    /** The end of load_file2: Read into `buffer`, then Close; on an error
        free the buffer and set it back to NULL. */
    method ReadInto(file: nat) returns (status: Status)
      requires !fw.halted && fw.WellFormed() && file in fw.open
      requires buffer != null && bufferPool in fw.live && bufferSize <= buffer.Length
      modifies this`fw, this`bufferSize, this`buffer, buffer
      ensures var l := Loader.ReadInto(env, old(fw), file, old(bufferSize), Loader.Block(bufferPool, old(buffer[..])));
        && fw == l.m && bufferSize == l.size && Holds(l.buffer) && status == l.status.value
    {
      var a := buffer;
      var (sRead, data, m8) := fw.Read(env, file, bufferSize);
      fw := m8;
      forall i | 0 <= i < |data| {
        a[i] := data[i];
      }
      assert a[..] == Loader.Overlay(old(a[..]), data);
      if IsError(sRead) {
        fw := fw.FreePool(bufferPool);
        buffer := null;
        return sRead;
      }
      bufferSize := |data|;
      var (sClose, m9) := fw.Close(env, file);
      fw := m9;
      if IsError(sClose) {
        fw := fw.FreePool(bufferPool);
        buffer := null;
        return sClose;
      }
      return Success;
    }

    /** load_file(): print the device path, open the boot volume's file
        system protocol and run load_file2; any failure goes to error_print. */
    method LoadFile()
      requires !fw.halted && fw.WellFormed() && loadedImage.Some?
      requires writeFile.Some? ==> writeFile.value in fw.open
      requires buffer == null
      modifies this`fw, this`bufferSize, this`buffer, this`bufferPool
      ensures var l := Boot.LoadFile(env, old(fw), old(loadedImage).value, old(writeFile), old(bufferSize), None);
        fw == l.m && bufferSize == l.size && Holds(l.buffer)
    {
      PrintDevicePath(loadedImage.value);
      if fw.halted {
        return;
      }
      LoadSource();
    }

    /** load_file after print_device_path. */
    method LoadSource()
      requires !fw.halted && fw.WellFormed() && loadedImage.Some?
      requires buffer == null
      modifies this`fw, this`bufferSize, this`buffer, this`bufferPool
      ensures var l := Boot.LoadSource(env, old(fw), old(loadedImage).value, old(bufferSize), None);
        fw == l.m && bufferSize == l.size && Holds(l.buffer)
    {
      var (sFs, m2) := fw.OpenProtocol(env, loadedImage.value, FileSystemProtocol);
      fw := m2;
      if IsError(sFs) {
        ErrorPrint(Boot.FileSystemFailedMsg, Some(sFs));
        return;
      }
      var status := LoadFile2();
      if !fw.halted && IsError(status) {
        ErrorPrint(Boot.LoadFailedMsg, Some(status));
      }
    }

    /** init(image_handle, system_table), run once from the initial globals. */
    method Init()
      requires !fw.halted && fw.WellFormed()
      requires loadedImage == None && writeFile == None && bufferSize == 0 && buffer == null
      modifies this
      ensures var r := Boot.Init(env, old(fw));
        && fw == r.m && ih == r.ih && loadedImage == r.loadedImage && writeFile == r.writeFile
        && bufferSize == r.bufferSize && Holds(r.buffer)
    {
      ih := env.imageHandle;
      var status := Success;
      if env.conIn {
        var (s, m1) := fw.ConInReset(env);
        status, fw := s, m1;
      }
      if !env.conIn || status != Success {
        ErrorPrint(Boot.InputFailedMsg, if env.conIn then Some(status) else None);
        return;
      }
      Start();
    }

    /** The rest of init once the console input device is reset. */
    method Start()
      requires !fw.halted && fw.WellFormed()
      requires ih == env.imageHandle
      requires loadedImage == None && writeFile == None && bufferSize == 0 && buffer == null
      modifies this`fw, this`loadedImage, this`writeFile, this`bufferSize, this`buffer, this`bufferPool
      ensures var r := Boot.Start(env, old(fw));
        && fw == r.m && loadedImage == r.loadedImage && writeFile == r.writeFile
        && bufferSize == r.bufferSize && Holds(r.buffer)
    {
      var (sImage, m2) := fw.OpenProtocol(env, env.imageHandle, LoadedImageProtocol);
      fw := m2;
      if IsError(sImage) {
        ErrorPrint(Boot.ImageFailedMsg, Some(sImage));
        return;
      }
      loadedImage := Some(env.deviceHandle);
      OpenFiles();
    }

    /** The rest of init: open_print_info, then load_file. */
    method OpenFiles()
      requires !fw.halted && fw.WellFormed()
      requires ih == env.imageHandle && loadedImage == Some(env.deviceHandle)
      requires writeFile == None && bufferSize == 0 && buffer == null
      modifies this`fw, this`writeFile, this`bufferSize, this`buffer, this`bufferPool
      ensures var r := Boot.OpenFiles(env, old(fw));
        fw == r.m && writeFile == r.writeFile && bufferSize == r.bufferSize && Holds(r.buffer)
    {
      writeFile := OpenPrintInfo();
      if fw.halted {
        return;
      }
      LoadFile();
    }

    /** efi_main(image_handle, system_table): init, then the rest. */
    method EfiMain()
      requires !fw.halted && fw.WellFormed()
      requires loadedImage == None && writeFile == None && bufferSize == 0 && buffer == null
      modifies this
      ensures fw == Boot.EfiMain(env, old(fw))
      ensures var st := Boot.Init(env, old(fw));
        !st.m.halted ==> (buffer == null <==> st.buffer.value.pool !in fw.live)
    {
      Init();
      if fw.halted {
        return;
      }
      Finish();
    }

    /** efi_main after init: the three log lines, close the log, free the
        source buffer and reset. */
    method Finish()
      requires !fw.halted && fw.WellFormed()
      requires writeFile.Some? && writeFile.value in fw.open
      requires buffer != null && bufferPool in fw.live
      modifies this`fw, this`buffer
      ensures fw == Boot.Finish(env, old(Globals()))
      ensures buffer == null <==> bufferPool !in fw.live
      ensures buffer != null ==> buffer == old(buffer)
    {
      ghost var st := Globals();
      var file, pool, text := writeFile, bufferPool, Boot.Units(buffer[..]);
      assert st.m == fw && st.writeFile == file && st.buffer == Some(Loader.Block(pool, buffer[..]));
      WritePrintInfo(file, Boot.MessageLine, Some(text));
      if fw.halted {
        return;
      }
      WritePrintInfo(file, Boot.StatusLine, Some(env.statusText(Success)));
      if fw.halted {
        return;
      }
      WritePrintInfo(file, Boot.PlainLine, Some(Boot.PressKeyMsg));
      if fw.halted {
        return;
      }
      CloseAndReset(file.value, pool);
    }

    /** The end of efi_main: close the log, free the source buffer, set
        `buffer` to NULL and reset; `buffer` is NULL exactly when its pool was
        freed. */
    method CloseAndReset(file: nat, pool: nat)
      requires !fw.halted && fw.WellFormed() && file in fw.open
      requires buffer != null && pool == bufferPool && pool in fw.live
      modifies this`fw, this`buffer
      ensures fw == Boot.CloseAndReset(env, old(fw), file, pool)
      ensures buffer == null <==> pool !in fw.live
      ensures buffer != null ==> buffer == old(buffer)
    {
      ClosePrintInfo(Some(file));
      if fw.halted {
        return;
      }
      fw := fw.FreePool(pool);
      buffer := null;
      ResetSystem(Success);
    }
  }
}

=== FILE: boot.dfy ===
/** The application above load_file2: efi_main, init, open_print_info,
    print_device_path, load_file, write_print_info and close_print_info, as
    functions of the firmware state. */
module Boot {
  import opened Status
  import opened Text
  import opened Firmware
  import opened Funnel
  import opened Loader

  const InputFailedMsg: seq<Char16> := L("Input device unavailable.\n")
  const ImageFailedMsg: seq<Char16> := L("OpenProtocol() LoadedImageProtocol failed.\n")
  const FileSystemFailedMsg: seq<Char16> := L("OpenProtocol() FileSystemProtocol failed.\n")
  const OpenVolumeFailedMsg: seq<Char16> := L("OpenVolume() failed.\n")
  const OpenFailedMsg: seq<Char16> := L("Open() failed.\n")
  const CloseFailedMsg: seq<Char16> := L("Close() failed.\n")
  const DevicePathFailedMsg: seq<Char16> := L("OpenProtocol() DevicePathProtocol failed.\n")
  const DevicePathToStrFailedMsg: seq<Char16> := L("DevicePathToStr() failed.\n")
  const LoadFailedMsg: seq<Char16> := L("load_file2() failed.\n")
  const WriteFailedMsg: seq<Char16> := L("Write() failed.\n")

  /** The log file open_print_info creates on the boot volume. */
  const LogPath: seq<Char16> := L("\\result.txt")

  const DevicePathLine: Template := Template(L("DevicePath: "), L("\n"))
  const MessageLine: Template := Template(L("Read the message from a file: "), L("\n"))
  const StatusLine: Template := Template(L("Error message example: "), L("\n"))
  const PlainLine: Template := Template([], [])
  const PressKeyMsg: seq<Char16> := L("When you press any key, the system will reboot.\n")

  /** The globals of the application, and the firmware, after init. */
  datatype State = State(
    m: Machine,
    ih: nat,                    // IH
    loadedImage: Option<nat>,   // loaded_image, by the DeviceHandle it reports
    writeFile: Option<nat>,     // write_file
    bufferSize: nat,            // buffer_size
    buffer: Option<Block>)      // buffer

  /** The code unit stored little-endian in the bytes `lo`, `hi`. */
  function Unit(lo: Char8, hi: Char8): (c: Char16)
    ensures c == 0 <==> lo == 0 && hi == 0
    ensures LowByte(c) == lo
  {
    (lo as Char16) | ((hi as Char16) << 8)
  }

  /** The bytes read as CHAR16: each pair of bytes, low byte first, is one
      code unit. */
  function Units(bytes: seq<Char8>): (w: seq<Char16>)
    ensures |w| == |bytes| / 2
    ensures forall i :: 0 <= i < |w| ==> (w[i] == 0 <==> bytes[2 * i] == 0 && bytes[2 * i + 1] == 0)
  {
    seq(|bytes| / 2, i requires 0 <= i < |bytes| / 2 => Unit(bytes[2 * i], bytes[2 * i + 1]))
  }

  /** The line write_print_info prints on the console. */
  function ConsoleLine(t: Template, param: seq<Char16>): seq<Char16>
  {
    RenderLine(Format(t, param), L("\n"))
  }

  /** The bytes write_print_info hands to Write: the CR LF line narrowed by
      convert_to_ascii and cut at strlena. */
  function LogBytes(t: Template, param: seq<Char16>): (b: seq<Char8>)
    ensures |b| < LineCapacity && 0 !in b
    ensures |b| <= |RenderLine(Format(t, param), L("\r\n"))|
    ensures b == Narrow(RenderLine(Format(t, param), L("\r\n")))[..|b|]
    ensures var line := RenderLine(Format(t, param), L("\r\n"));
      |b| == |line| || Narrow(line)[|b|] == 0
  {
    var line := RenderLine(Format(t, param), L("\r\n"));
    NarrowedLength(line);
    var n := StrLenA(Narrow(line) + [0]);
    assert forall i :: 0 <= i < n ==> Narrow(line)[..n][i] == LowByte(line[i]);
    Narrow(line)[..n]
  }

  /** write_print_info(file, fmt, param): with a file and a parameter, print
      the line, then write its narrowed CR LF form to the file. Without
      either it does nothing. */
  function WritePrintInfo(env: Env, m: Machine, file: Option<nat>, t: Template, param: Option<seq<Char16>>): (r: Machine)
    requires !m.halted && m.WellFormed()
    requires file.Some? ==> file.value in m.open
    ensures Proceeds(m, r)
    ensures r.handles == m.handles && r.pools == m.pools && r.open == m.open && r.live == m.live
    ensures file.None? || param.None? ==> r == m
    ensures file.Some? && param.Some? ==>
      && (r.halted <==> IsError(AnswerAt(env, m.next)))
      && (!r.halted ==> |r.trace| == |m.trace| + 2 && r.next == m.next + 1)
  {
    if file.None? || param.None? then m else
    WriteLog(env, m.Print(ConsoleLine(t, param.value)), file.value, LogBytes(t, param.value))
  }

  /** write_print_info prints the line, then writes the narrowed line to the
      file: the console gets the LF form, the file the CR LF form. */
  lemma WritePrintInfoEvents(env: Env, m: Machine, file: nat, t: Template, param: seq<Char16>)
    requires !m.halted && m.WellFormed() && file in m.open
    ensures var r := WritePrintInfo(env, m, Some(file), t, Some(param));
      && Extends(m, r) && |r.trace| >= |m.trace| + 2
      && r.trace[|m.trace|] == Event.Print(ConsoleLine(t, param))
      && r.trace[|m.trace| + 1] == Event.Write(file, LogBytes(t, param), AnswerAt(env, m.next))
      && (r.halted ==> |r.trace| > |m.trace| + 2 && r.trace[|m.trace| + 2] == Event.Print(WriteFailedMsg))
  {
    var m1 := m.Print(ConsoleLine(t, param));
    var (s, m2) := m1.Write(env, file, LogBytes(t, param));
    assert Extends(m2, WriteLog(env, m1, file, LogBytes(t, param)));
  }

  /** The Write at the end of write_print_info; a failed Write goes to
      error_print. */
  function WriteLog(env: Env, m: Machine, file: nat, bytes: seq<Char8>): (r: Machine)
    requires !m.halted && m.WellFormed() && file in m.open
    ensures Proceeds(m, r)
    ensures r.handles == m.handles && r.pools == m.pools && r.open == m.open && r.live == m.live
    ensures r.halted <==> IsError(AnswerAt(env, m.next))
    ensures !r.halted ==> |r.trace| == |m.trace| + 1 && r.next == m.next + 1
  {
    var (s, m1) := m.Write(env, file, bytes);
    if IsError(s) then ErrorPrint(env, m1, WriteFailedMsg, Some(s)) else m1
  }

  /** close_print_info(file): closes the log file; a failed Close goes to
      error_print. */
  function ClosePrintInfo(env: Env, m: Machine, file: Option<nat>): (r: Machine)
    requires !m.halted && m.WellFormed()
    requires file.Some? ==> file.value in m.open
    ensures Proceeds(m, r)
    ensures r.handles == m.handles && r.pools == m.pools && r.live == m.live
    ensures file.None? ==> r == m
    ensures file.Some? ==>
      && |r.trace| > |m.trace| && r.trace[|m.trace|] == Event.Close(file.value, AnswerAt(env, m.next))
      && (r.halted <==> IsError(AnswerAt(env, m.next)))
      && (r.halted ==> r.open == m.open)
      && (!r.halted ==> r.open == m.open - {file.value})
  {
    if file.None? then m else
    var (s, m1) := m.Close(env, file.value);
    if IsError(s) then ErrorPrint(env, m1, CloseFailedMsg, Some(s))
    else m1
  }

  /** open_print_info(LogPath) on the volume of `device`: open the file
      system protocol and the volume, create or open the log file for
      writing, close the volume's root; every failure goes to error_print.
      Returns the log file's handle. */
  function OpenPrintInfo(env: Env, m: Machine, device: nat): (r: (Option<nat>, Machine))
    requires !m.halted && m.WellFormed()
    ensures Proceeds(m, r.1)
    ensures r.1.live == m.live && r.1.pools == m.pools && m.open <= r.1.open
    ensures r.0.None? <==> r.1.halted
    ensures r.0.Some? ==> r.0.value == m.handles + 1 && r.1.open == m.open + {r.0.value}
  {
    var (sFs, m1) := m.OpenProtocol(env, device, FileSystemProtocol);
    if IsError(sFs) then (None, ErrorPrint(env, m1, FileSystemFailedMsg, Some(sFs))) else
    var (sVolume, root, m2) := m1.OpenVolume(env);
    if IsError(sVolume) then (None, ErrorPrint(env, m2, OpenVolumeFailedMsg, Some(sVolume))) else
    OpenLog(env, m2, root)
  }

  /** open_print_info once the volume is open at `root`: create or open the
      log file for writing, then close the root. */
  function OpenLog(env: Env, m2: Machine, root: nat): (r: (Option<nat>, Machine))
    requires !m2.halted && m2.WellFormed() && root in m2.open
    ensures Proceeds(m2, r.1)
    ensures r.1.live == m2.live && r.1.pools == m2.pools && m2.open - {root} <= r.1.open
    ensures r.0.None? <==> r.1.halted
    ensures r.0.Some? ==> r.0.value == m2.handles && r.1.open == m2.open - {root} + {r.0.value}
  {
    var (sOpen, file, m3) := m2.Open(env, root, LogPath, ReadWriteCreate);
    if IsError(sOpen) then (None, ErrorPrint(env, m3, OpenFailedMsg, Some(sOpen))) else
    var (sClose, m4) := m3.Close(env, root);
    if IsError(sClose) then (None, ErrorPrint(env, m4, CloseFailedMsg, Some(sClose))) else
    (Some(file), m4)
  }

  /** When open_print_info returns, it made exactly four calls: the file
      system protocol, OpenVolume, Open of the log file for writing, and
      Close of the volume's root, none of which failed. */
  lemma OpenPrintInfoEvents(env: Env, m: Machine, device: nat)
    requires !m.halted && m.WellFormed()
    requires OpenPrintInfo(env, m, device).0.Some?
    ensures OpenPrintInfo(env, m, device).1.trace ==
      m.trace + [Event.OpenProtocol(device, FileSystemProtocol, AnswerAt(env, m.next)),
                 Event.OpenVolume(AnswerAt(env, m.next + 1)),
                 Event.Open(LogPath, ReadWriteCreate, AnswerAt(env, m.next + 2)),
                 Event.Close(m.handles, AnswerAt(env, m.next + 3))]
    ensures !IsError(AnswerAt(env, m.next)) && !IsError(AnswerAt(env, m.next + 1))
    ensures !IsError(AnswerAt(env, m.next + 2)) && !IsError(AnswerAt(env, m.next + 3))
  {
    var (sFs, m1) := m.OpenProtocol(env, device, FileSystemProtocol);
    var (sVolume, root, m2) := m1.OpenVolume(env);
    var (sOpen, file, m3) := m2.Open(env, root, LogPath, ReadWriteCreate);
    var (sClose, m4) := m3.Close(env, root);
    assert m4.trace == m.trace + [Event.OpenProtocol(device, FileSystemProtocol, sFs),
      Event.OpenVolume(sVolume), Event.Open(LogPath, ReadWriteCreate, sOpen), Event.Close(root, sClose)];
  }

  /** print_device_path(handle): open the device path protocol, render it
      with DevicePathToStr, write it to the log and free the string. */
  function PrintDevicePath(env: Env, m: Machine, handle: nat, file: Option<nat>): (r: Machine)
    requires !m.halted && m.WellFormed()
    requires file.Some? ==> file.value in m.open
    ensures Proceeds(m, r)
    ensures r.open == m.open && m.live <= r.live && (!r.halted ==> r.live == m.live)
  {
    var (s, m1) := m.OpenProtocol(env, handle, DevicePathProtocol);
    if IsError(s) then ErrorPrint(env, m1, DevicePathFailedMsg, Some(s)) else
    var (p, m2) := m1.DevicePathToStr(env);
    if p.None? then ErrorPrint(env, m2, DevicePathToStrFailedMsg, None) else
    var m3 := WritePrintInfo(env, m2, file, DevicePathLine, Some(env.devicePathText));
    ExtendsTrans(m, m2, m3);
    if m3.halted then m3 else
    ExtendsTrans(m, m3, m3.FreePool(p.value));
    m3.FreePool(p.value)
  }

  /** print_device_path's first call opens the device path protocol of the
      handle it is given. */
  lemma PrintDevicePathFirst(env: Env, m: Machine, handle: nat, file: Option<nat>)
    requires !m.halted && m.WellFormed()
    requires file.Some? ==> file.value in m.open
    ensures var r := PrintDevicePath(env, m, handle, file);
      |r.trace| > |m.trace| && r.trace[|m.trace|] == Event.OpenProtocol(handle, DevicePathProtocol, AnswerAt(env, m.next))
  {
    var (s, m1) := m.OpenProtocol(env, handle, DevicePathProtocol);
    var r := PrintDevicePath(env, m, handle, file);
    assert Extends(m1, r) by {
      if !IsError(s) {
        var (p, m2) := m1.DevicePathToStr(env);
        if p.Some? {
          ExtendsTrans(m1, m2, WritePrintInfo(env, m2, file, DevicePathLine, Some(env.devicePathText)));
        }
      }
    }
  }

  /** load_file(): print the device path, open the file system protocol of
      the boot device and run load_file2; any failure goes to error_print,
      so a return means the source file is in `buffer`. */
  function LoadFile(env: Env, m: Machine, device: nat, file: Option<nat>, size0: nat, buf0: Option<Block>): (r: Loaded)
    requires !m.halted && m.WellFormed()
    requires file.Some? ==> file.value in m.open
    ensures Proceeds(m, r.m)
    ensures r.status.None? <==> r.m.halted
    ensures m.open <= r.m.open
    ensures !r.m.halted ==>
      && r.status == Some(Success) && r.buffer.Some? && r.buffer.value.pool !in m.live
      && r.m.live == m.live + {r.buffer.value.pool}
  {
    var m1 := PrintDevicePath(env, m, device, file);
    if m1.halted then Loaded(None, m1, size0, buf0) else
    LoadSource(env, m1, device, size0, buf0)
  }

  /** The rest of load_file after the device path is printed: open the file
      system protocol of the boot device and run load_file2. */
  function LoadSource(env: Env, m1: Machine, device: nat, size0: nat, buf0: Option<Block>): (r: Loaded)
    requires !m1.halted && m1.WellFormed()
    ensures Proceeds(m1, r.m)
    ensures r.status.None? <==> r.m.halted
    ensures m1.open <= r.m.open
    ensures !r.m.halted ==>
      && r.status == Some(Success) && r.buffer.Some? && r.buffer.value.pool !in m1.live
      && r.m.live == m1.live + {r.buffer.value.pool}
  {
    var (sFs, m2) := m1.OpenProtocol(env, device, FileSystemProtocol);
    if IsError(sFs) then Loaded(None, ErrorPrint(env, m2, FileSystemFailedMsg, Some(sFs)), size0, buf0) else
    var l := LoadFile2(env, m2, size0, buf0);
    if l.status.Some? && IsError(l.status.value) then
      Loaded(None, ErrorPrint(env, l.m, LoadFailedMsg, l.status), l.size, l.buffer)
    else l
  }

  /** init(image_handle, system_table): check and reset the console input
      device, find the loaded image, open the log file and load the source
      file. The globals start as NULL and zero. */
  function Init(env: Env, m: Machine): (r: State)
    requires !m.halted && m.WellFormed()
    ensures Proceeds(m, r.m)
    ensures r.ih == env.imageHandle
    ensures !r.m.halted ==>
      && r.loadedImage == Some(env.deviceHandle)
      && r.writeFile.Some? && r.writeFile.value !in m.open && r.writeFile.value in r.m.open
      && r.buffer.Some? && r.buffer.value.pool !in m.live
      && r.m.live == m.live + {r.buffer.value.pool}
  {
    var (sReset, m1) := if env.conIn then m.ConInReset(env) else (Success, m);
    if !env.conIn || sReset != Success then
      var r := ErrorPrint(env, m1, InputFailedMsg, if env.conIn then Some(sReset) else None);
      ExtendsTrans(m, m1, r);
      State(r, env.imageHandle, None, None, 0, None)
    else
    ExtendsTrans(m, m1, Start(env, m1).m);
    Start(env, m1)
  }

  /** The rest of init once the console input device is reset: find the
      loaded image, then open the files. */
  function Start(env: Env, m1: Machine): (r: State)
    requires !m1.halted && m1.WellFormed()
    ensures Proceeds(m1, r.m)
    ensures r.ih == env.imageHandle
    ensures !r.m.halted ==>
      && r.loadedImage == Some(env.deviceHandle)
      && r.writeFile.Some? && r.writeFile.value !in m1.open && r.writeFile.value in r.m.open
      && r.buffer.Some? && r.buffer.value.pool !in m1.live
      && r.m.live == m1.live + {r.buffer.value.pool}
  {
    var (sImage, m2) := m1.OpenProtocol(env, env.imageHandle, LoadedImageProtocol);
    if IsError(sImage) then
      State(ErrorPrint(env, m2, ImageFailedMsg, Some(sImage)), env.imageHandle, None, None, 0, None)
    else
    OpenFiles(env, m2)
  }

  /** The rest of init once `loaded_image` is known: open the log file on
      the boot volume, then load the source file from it. */
  function OpenFiles(env: Env, m2: Machine): (r: State)
    requires !m2.halted && m2.WellFormed()
    ensures Proceeds(m2, r.m)
    ensures r.ih == env.imageHandle && r.loadedImage == Some(env.deviceHandle)
    ensures !r.m.halted ==>
      && r.writeFile.Some? && r.writeFile.value !in m2.open && r.writeFile.value in r.m.open
      && r.buffer.Some? && r.buffer.value.pool !in m2.live
      && r.m.live == m2.live + {r.buffer.value.pool}
  {
    var (file, m3) := OpenPrintInfo(env, m2, env.deviceHandle);
    if file.None? then State(m3, env.imageHandle, Some(env.deviceHandle), None, 0, None) else
    var l := LoadFile(env, m3, env.deviceHandle, file, 0, None);
    State(l.m, env.imageHandle, Some(env.deviceHandle), file, l.size, l.buffer)
  }

  /** efi_main after init: the three log lines, close the log, free the
      source buffer, then reset with EFI_SUCCESS. */
  function Finish(env: Env, st: State): (r: Machine)
    requires !st.m.halted && st.m.WellFormed()
    requires st.writeFile.Some? && st.writeFile.value in st.m.open
    requires st.buffer.Some? && st.buffer.value.pool in st.m.live
    ensures Proceeds(st.m, r) && ResetWith(r, Success)
  {
    var file := st.writeFile;
    var m1 := WritePrintInfo(env, st.m, file, MessageLine, Some(Units(st.buffer.value.bytes)));
    if m1.halted then m1 else
    var m2 := WritePrintInfo(env, m1, file, StatusLine, Some(env.statusText(Success)));
    ExtendsTrans(st.m, m1, m2);
    if m2.halted then m2 else
    var m3 := WritePrintInfo(env, m2, file, PlainLine, Some(PressKeyMsg));
    ExtendsTrans(st.m, m2, m3);
    if m3.halted then m3 else
    ExtendsTrans(st.m, m3, CloseAndReset(env, m3, file.value, st.buffer.value.pool));
    CloseAndReset(env, m3, file.value, st.buffer.value.pool)
  }

  /** The end of efi_main: close_print_info, then, when it returns,
      FreePool(buffer) and reset_system(EFI_SUCCESS). The source buffer is
      freed exactly when the Close succeeds. */
  function CloseAndReset(env: Env, m: Machine, file: nat, pool: nat): (r: Machine)
    requires !m.halted && m.WellFormed() && file in m.open && pool in m.live
    ensures Proceeds(m, r) && ResetWith(r, Success)
    ensures pool !in r.live <==> !IsError(AnswerAt(env, m.next))
    ensures r.live == m.live - {pool} || r.live == m.live
  {
    var m4 := ClosePrintInfo(env, m, Some(file));
    if m4.halted then m4 else
    var m5 := m4.FreePool(pool);
    ExtendsTrans(m, m4, m5);
    ExtendsTrans(m, m5, Funnel.ResetSystem(env, m5, Success));
    Funnel.ResetSystem(env, m5, Success)
  }

  /** Inside init the log is opened before load_file runs: open_print_info's
      calls stay first; when it halted nothing follows, and otherwise the
      next call is load_file's first, the device path protocol of the boot
      device. */
  lemma LogOpenedBeforeLoad(env: Env, m2: Machine)
    requires !m2.halted && m2.WellFormed()
    ensures var (f, m3) := OpenPrintInfo(env, m2, env.deviceHandle);
      var r := OpenFiles(env, m2).m;
      && Extends(m3, r)
      && (f.None? ==> r == m3)
      && (f.Some? ==> |r.trace| > |m3.trace|
                      && r.trace[|m3.trace|] == Event.OpenProtocol(env.deviceHandle, DevicePathProtocol, AnswerAt(env, m3.next)))
  {
    var (f, m3) := OpenPrintInfo(env, m2, env.deviceHandle);
    if f.Some? {
      var l := LoadFile(env, m3, env.deviceHandle, f, 0, None);
      var m4 := PrintDevicePath(env, m3, env.deviceHandle, f);
      PrintDevicePathFirst(env, m3, env.deviceHandle, f);
      assert l.m.trace[|m3.trace|] == m4.trace[|m3.trace|];
    }
  }

  /** A Write or a Close that failed. */
  predicate FailedCall(e: Event)
  {
    (e.Write? || e.Close?) && IsError(e.status)
  }

  /** From position `from` of the trace `t` on, every call after a failed
      Write or Close only reports. */
  ghost predicate StopsAfterFailure(t: seq<Event>, from: nat)
  {
    forall i, j :: from <= i < j < |t| && FailedCall(t[i]) ==> Reporting(t[j])
  }

  /** A stage that ran from `a` to `b` without a failed call, followed by a
      run to `r` that stops after a failure, stops after a failure. */
  lemma StopsAfterFailureStep(a: Machine, b: Machine, r: Machine)
    requires Extends(a, b) && Extends(b, r)
    requires forall i :: |a.trace| <= i < |b.trace| ==> !FailedCall(b.trace[i])
    requires StopsAfterFailure(r.trace, |b.trace|)
    ensures StopsAfterFailure(r.trace, |a.trace|)
  {
    forall i, j | |a.trace| <= i < j < |r.trace| && FailedCall(r.trace[i])
      ensures Reporting(r.trace[j])
    {
    }
  }

  /** write_print_info stops after a failed Write, and a write_print_info
      that returns made no failed call. */
  lemma WriteStage(env: Env, m: Machine, file: nat, t: Template, param: seq<Char16>)
    requires !m.halted && m.WellFormed() && file in m.open
    ensures var r := WritePrintInfo(env, m, Some(file), t, Some(param));
      && StopsAfterFailure(r.trace, |m.trace|)
      && (!r.halted ==> forall i :: |m.trace| <= i < |r.trace| ==> !FailedCall(r.trace[i]))
  {
    WritePrintInfoEvents(env, m, file, t, param);
    var m1 := m.Print(ConsoleLine(t, param));
    var (s, m2) := m1.Write(env, file, LogBytes(t, param));
    if IsError(s) {
      ErrorPrintReports(env, m2, WriteFailedMsg, Some(s));
    }
  }

  /** close_print_info stops after a failed Close, and a close_print_info
      that returns made no failed call. */
  lemma CloseStage(env: Env, m: Machine, file: nat)
    requires !m.halted && m.WellFormed() && file in m.open
    ensures var r := ClosePrintInfo(env, m, Some(file));
      && StopsAfterFailure(r.trace, |m.trace|)
      && (!r.halted ==> forall i :: |m.trace| <= i < |r.trace| ==> !FailedCall(r.trace[i]))
  {
    var (s, m1) := m.Close(env, file);
    if IsError(s) {
      ErrorPrintReports(env, m1, CloseFailedMsg, Some(s));
    }
  }

  /** A write_print_info stage followed, when it returns, by a rest that
      stops after a failure, stops after a failure. */
  lemma WriteThen(env: Env, m: Machine, file: nat, t: Template, param: seq<Char16>, rest: Machine)
    requires !m.halted && m.WellFormed() && file in m.open
    requires var m1 := WritePrintInfo(env, m, Some(file), t, Some(param));
      !m1.halted ==> Extends(m1, rest) && StopsAfterFailure(rest.trace, |m1.trace|)
    ensures var m1 := WritePrintInfo(env, m, Some(file), t, Some(param));
      var r := if m1.halted then m1 else rest;
      Extends(m, r) && StopsAfterFailure(r.trace, |m.trace|)
  {
    var m1 := WritePrintInfo(env, m, Some(file), t, Some(param));
    WriteStage(env, m, file, t, param);
    if !m1.halted {
      ExtendsTrans(m, m1, rest);
      StopsAfterFailureStep(m, m1, rest);
    }
  }

  /** The end of efi_main stops after a failure: a failed Close is followed
      only by reports, and the FreePool and the reset make no failed call. */
  lemma CloseThen(env: Env, m: Machine, file: nat, pool: nat)
    requires !m.halted && m.WellFormed() && file in m.open && pool in m.live
    ensures StopsAfterFailure(CloseAndReset(env, m, file, pool).trace, |m.trace|)
  {
    var m1 := ClosePrintInfo(env, m, Some(file));
    CloseStage(env, m, file);
    if !m1.halted {
      var m2 := m1.FreePool(pool);
      var r := Funnel.ResetSystem(env, m2, Success);
      ResetSystemExtends(env, m2, Success);
      ExtendsTrans(m1, m2, r);
      ExtendsTrans(m, m1, r);
      StopsAfterFailureStep(m, m1, r);
    }
  }

  /** In efi_main after init, once a Write or the Close fails, every later
      call only reports: no further line, Close or FreePool is made. */
  lemma FinishStopsAtFailure(env: Env, st: State)
    requires !st.m.halted && st.m.WellFormed()
    requires st.writeFile.Some? && st.writeFile.value in st.m.open
    requires st.buffer.Some? && st.buffer.value.pool in st.m.live
    ensures StopsAfterFailure(Finish(env, st).trace, |st.m.trace|)
  {
    var file, f, pool, text := st.writeFile, st.writeFile.value, st.buffer.value.pool, Units(st.buffer.value.bytes);
    var m1 := WritePrintInfo(env, st.m, file, MessageLine, Some(text));
    if m1.halted {
      WriteThen(env, st.m, f, MessageLine, text, m1);
    } else {
      var m2 := WritePrintInfo(env, m1, file, StatusLine, Some(env.statusText(Success)));
      var rest2: Machine;
      if m2.halted {
        rest2 := m2;
      } else {
        var m3 := WritePrintInfo(env, m2, file, PlainLine, Some(PressKeyMsg));
        var rest3: Machine;
        if m3.halted {
          rest3 := m3;
        } else {
          rest3 := CloseAndReset(env, m3, f, pool);
          CloseThen(env, m3, f, pool);
        }
        WriteThen(env, m2, f, PlainLine, PressKeyMsg, rest3);
        rest2 := if m3.halted then m3 else rest3;
      }
      WriteThen(env, m1, f, StatusLine, env.statusText(Success), rest2);
      WriteThen(env, st.m, f, MessageLine, text, if m2.halted then m2 else rest2);
    }
  }

  /** efi_main(image_handle, system_table), entered with the firmware in
      state `m0`: whatever the firmware answers, the run ends in a cold reset
      with EFI_SUCCESS, and nothing follows it. */
  function EfiMain(env: Env, m0: Machine): (r: Machine)
    requires !m0.halted && m0.WellFormed()
    ensures Proceeds(m0, r) && ResetWith(r, Success)
  {
    var st := Init(env, m0);
    if st.m.halted then st.m else Finish(env, st)
  }
}

=== FILE: firmware.dfy ===
/** The firmware the application runs against, reduced to what the
    application observes: every fallible service returns the next status of a
    script, and every call is recorded in a trace. */
module Firmware {
  import opened Status
  import opened Text

  /** The protocols the application opens with BS->OpenProtocol. */
  datatype Protocol = LoadedImageProtocol | FileSystemProtocol | DevicePathProtocol

  /** The open modes of EFI_FILE_PROTOCOL.Open used by the application. */
  datatype OpenMode = ReadOnly | ReadWriteCreate

  /** The reset kinds of RT->ResetSystem used by the application. */
  datatype ResetType = ResetCold

  /** One call into the firmware, with the status it returned. */
  datatype Event =
    | ConInReset(status: Status)
    | OpenProtocol(handle: nat, protocol: Protocol, status: Status)
    | OpenVolume(status: Status)
    | Open(path: seq<Char16>, mode: OpenMode, status: Status)
    | GetInfo(file: nat, capacity: nat, status: Status)
    | AllocatePool(size: nat, granted: bool)
    | FreePool(pool: nat)
    | DevicePathToStr(granted: bool)
    | Read(file: nat, size: nat, status: Status)
    | Write(file: nat, bytes: seq<Char8>, status: Status)
    | Close(file: nat, status: Status)
    | Print(text: seq<Char16>)
    | PrintStatus(status: Status)
    | ReadKeyStroke(status: Status)
    | ResetSystem(kind: ResetType, status: Status)

  /** What the firmware and the boot volume hold for one run. */
  datatype Env = Env(
    answers: seq<Status>,           // status of each successive fallible call; Success once used up
    keys: seq<Status>,              // status of each successive ReadKeyStroke; Success once used up
    conIn: bool,                    // ST->ConIn != NULL
    imageHandle: nat,               // the image handle passed to efi_main
    deviceHandle: nat,              // loaded_image->DeviceHandle
    infoSize: nat,                  // the EFI_FILE_INFO size a too-small GetInfo asks for
    fileSize: nat,                  // EFI_FILE_INFO.FileSize of the source file
    fileData: seq<Char8>,           // the bytes Read delivers from the source file
    devicePathText: seq<Char16>,    // DevicePathToStr of the boot device
    statusText: Status -> seq<Char16>,                  // print_status_msg
    stale: nat -> Char8)            // the byte at each offset of memory AllocatePool returns

  /** The firmware's state: how much of the scripts is used, the file handles
      and pool allocations handed out, which are still open / live, the
      trace, and whether the platform has been reset. */
  datatype Machine = Machine(
    next: nat,
    keysRead: nat,
    handles: nat,
    pools: nat,
    open: set<nat>,
    live: set<nat>,
    trace: seq<Event>,
    halted: bool)
  {
    /** Open handles and live pools were all handed out earlier. */
    ghost predicate WellFormed()
    {
      (forall h :: h in open ==> h < handles) && (forall p :: p in live ==> p < pools)
    }

    /** The status the next fallible call returns. */
    function Answer(env: Env): Status
    {
      AnswerAt(env, next)
    }

    /** Consumes one scripted status and records `e`. */
    function Step(e: Event): (r: Machine)
    {
      this.(next := next + 1, trace := trace + [e])
    }

    /** ST->ConIn->Reset(ST->ConIn, 0). */
    function ConInReset(env: Env): (Status, Machine)
      requires !halted
    {
      var s := Answer(env);
      (s, Step(Event.ConInReset(s)))
    }

    /** BS->OpenProtocol(handle, protocol, ...). */
    function OpenProtocol(env: Env, handle: nat, protocol: Protocol): (Status, Machine)
      requires !halted
    {
      var s := Answer(env);
      (s, Step(Event.OpenProtocol(handle, protocol, s)))
    }

    /** OpenVolume: on success a new root handle, now open. */
    function OpenVolume(env: Env): (r: (Status, nat, Machine))
      requires !halted
      ensures WellFormed() ==> r.2.WellFormed()
      ensures r.1 == handles
    {
      var s := Answer(env);
      var m := Step(Event.OpenVolume(s));
      (s, handles, if IsError(s) then m else m.(handles := handles + 1, open := open + {handles}))
    }

    /** parent->Open(parent, &file, path, mode, ...): on success a new file
        handle, now open. */
    function Open(env: Env, parent: nat, path: seq<Char16>, mode: OpenMode): (r: (Status, nat, Machine))
      requires !halted && parent in open
      ensures WellFormed() ==> r.2.WellFormed()
      ensures r.1 == handles
    {
      var s := Answer(env);
      var m := Step(Event.Open(path, mode, s));
      (s, handles, if IsError(s) then m else m.(handles := handles + 1, open := open + {handles}))
    }

    /** file->GetInfo(file, &GenericFileInfo, &size, info) with a buffer of
        `capacity` bytes: a BufferTooSmall answer reports the size needed,
        any other answer leaves the size as it was. */
    function GetInfo(env: Env, file: nat, capacity: nat): (r: (Status, nat, Machine))
      requires !halted && file in open
      ensures WellFormed() ==> r.2.WellFormed()
      ensures r.2.handles == handles && r.2.open == open && r.2.pools == pools && r.2.live == live
      ensures r.1 == if r.0 == BufferTooSmall then env.infoSize else capacity
    {
      var s := Answer(env);
      (s, if s == BufferTooSmall then env.infoSize else capacity, Step(Event.GetInfo(file, capacity, s)))
    }

    /** AllocatePool(size): a new live pool, or NULL. */
    function AllocatePool(env: Env, size: nat): (r: (Option<nat>, Machine))
      requires !halted
      ensures WellFormed() ==> r.1.WellFormed()
      ensures r.0.Some? ==> r.0.value == pools
    {
      var granted := !IsError(Answer(env));
      var m := Step(Event.AllocatePool(size, granted));
      if granted then (Some(pools), m.(pools := pools + 1, live := live + {pools})) else (None, m)
    }

    /** FreePool(pool). */
    function FreePool(pool: nat): Machine
      requires !halted && pool in live
    {
      this.(live := live - {pool}, trace := trace + [Event.FreePool(pool)])
    }

    /** DevicePathToStr: a new live pool holding env.devicePathText, or NULL. */
    function DevicePathToStr(env: Env): (r: (Option<nat>, Machine))
      requires !halted
      ensures WellFormed() ==> r.1.WellFormed()
      ensures r.0.Some? ==> r.0.value == pools
    {
      var granted := !IsError(Answer(env));
      var m := Step(Event.DevicePathToStr(granted));
      if granted then (Some(pools), m.(pools := pools + 1, live := live + {pools})) else (None, m)
    }

    /** file->Read(file, &size, buffer): on a non-error answer, the first
        bytes of the file, at most `size` of them. */
    function Read(env: Env, file: nat, size: nat): (r: (Status, seq<Char8>, Machine))
      requires !halted && file in open
      ensures |r.1| <= size && |r.1| <= |env.fileData| && r.1 == env.fileData[..|r.1|]
      ensures IsError(r.0) ==> r.1 == []
    {
      var s := Answer(env);
      var n := if size < |env.fileData| then size else |env.fileData|;
      (s, if IsError(s) then [] else env.fileData[..n], Step(Event.Read(file, size, s)))
    }

    /** file->Write(file, &size, bytes). */
    function Write(env: Env, file: nat, bytes: seq<Char8>): (Status, Machine)
      requires !halted && file in open
    {
      var s := Answer(env);
      (s, Step(Event.Write(file, bytes, s)))
    }

    /** file->Close(file): a successful close releases the handle. */
    function Close(env: Env, file: nat): (r: (Status, Machine))
      requires !halted && file in open
      ensures WellFormed() ==> r.1.WellFormed()
    {
      var s := Answer(env);
      var m := Step(Event.Close(file, s));
      (s, if IsError(s) then m else m.(open := open - {file}))
    }

    /** Print(text) on the console. */
    function Print(text: seq<Char16>): Machine
      requires !halted
    {
      this.(trace := trace + [Event.Print(text)])
    }

    /** Print(L"EFI_STATUS = %d, %s\n", status, print_status_msg(status)). */
    function PrintStatus(status: Status): Machine
      requires !halted
    {
      this.(trace := trace + [Event.PrintStatus(status)])
    }

    /** ST->ConIn->ReadKeyStroke: the next status of the key script. */
    function ReadKeyStroke(env: Env): (r: (Status, Machine))
      requires !halted
      ensures r.0 != Success ==> keysRead < |env.keys|
    {
      var s := if keysRead < |env.keys| then env.keys[keysRead] else Success;
      (s, this.(keysRead := keysRead + 1, trace := trace + [Event.ReadKeyStroke(s)]))
    }

    /** RT->ResetSystem(kind, status, 0, NULL): the platform resets; nothing
        runs afterwards. */
    function ResetSystem(kind: ResetType, status: Status): Machine
      requires !halted
    {
      this.(halted := true, trace := trace + [Event.ResetSystem(kind, status)])
    }
  }

  /** `r` is a later state of the machine `m`: m's trace is a prefix of r's. */
  ghost predicate Extends(m: Machine, r: Machine)
  {
    m.trace <= r.trace
  }

  /** A later state of a later state is a later state. */
  lemma ExtendsTrans(a: Machine, b: Machine, c: Machine)
    requires Extends(a, b) && Extends(b, c)
    ensures Extends(a, c)
  {
  }

  /** The status the fallible call numbered `k` (from 0) returns. */
  function AnswerAt(env: Env, k: nat): Status
  {
    if k < |env.answers| then env.answers[k] else Success
  }

  /** The firmware before efi_main runs. */
  const PowerOn: Machine := Machine(0, 0, 0, 0, {}, {}, [], false)

  datatype Option<T> = None | Some(value: T)
}

=== FILE: funnel.dfy ===
/** The only failure handler of the application: error_print, which reports
    and then calls reset_system, which waits for a key (read_key) and resets
    the platform. */
module Funnel {
  import opened Status
  import opened Text
  import opened Firmware

  /** The platform has been reset with `status`, and that was the last call. */
  ghost predicate ResetWith(m: Machine, status: Status)
  {
    m.halted && |m.trace| > 0 && m.trace[|m.trace| - 1] == Event.ResetSystem(ResetCold, status)
  }

  /** Only the key script position and the trace differ between `m` and
      `r`, and the trace has not shrunk. */
  ghost predicate OnlyTraceChanged(m: Machine, r: Machine)
  {
    r.next == m.next && r.handles == m.handles && r.pools == m.pools &&
    r.open == m.open && r.live == m.live && |m.trace| <= |r.trace|
  }

  /** `r` is what the application can leave behind when it started from `m`:
      still well formed, with m's calls kept in order at the start of the
      trace, and, if it has stopped, stopped by the funnel's EFI_SUCCESS
      reset. */
  ghost predicate Proceeds(m: Machine, r: Machine)
  {
    && r.WellFormed() && r.handles >= m.handles && r.pools >= m.pools
    && Extends(m, r)
    && (r.halted ==> ResetWith(r, Success))
  }

  /** The `do { ReadKeyStroke } while (EFI_SUCCESS != status)` loop of
      read_key: it polls until a poll succeeds. */
  function PollKeys(env: Env, m: Machine): (r: Machine)
    requires !m.halted
    ensures !r.halted && OnlyTraceChanged(m, r) && Extends(m, r)
    ensures |r.trace| > |m.trace| && r.trace[|r.trace| - 1] == Event.ReadKeyStroke(Success)
    decreases |env.keys| - m.keysRead
  {
    var (s, m1) := m.ReadKeyStroke(env);
    if s == Success then m1 else PollKeys(env, m1)
  }

  /** The polls keep the earlier trace, every call they add is a
      ReadKeyStroke, and the last one is the only successful one. */
  lemma {:induction false} PollKeysEvents(env: Env, m: Machine)
    requires !m.halted
    ensures var r := PollKeys(env, m);
      && Extends(m, r)
      && (forall i :: |m.trace| <= i < |r.trace| ==> r.trace[i].ReadKeyStroke?)
      && (forall i :: |m.trace| <= i < |r.trace| - 1 ==> r.trace[i].status != Success)
    decreases |env.keys| - m.keysRead
  {
    var (s, m1) := m.ReadKeyStroke(env);
    if s != Success {
      PollKeysEvents(env, m1);
    }
  }

  /** read_key: returns at once without a console input device, otherwise
      polls for a key. */
  function ReadKey(env: Env, m: Machine): (r: Machine)
    requires !m.halted
    ensures !r.halted && OnlyTraceChanged(m, r) && Extends(m, r)
    ensures !env.conIn ==> r == m
    ensures env.conIn ==> |r.trace| > |m.trace| && r.trace[|r.trace| - 1] == Event.ReadKeyStroke(Success)
  {
    if env.conIn then PollKeys(env, m) else m
  }

  /** reset_system(status): read_key, then a cold reset carrying `status`. */
  function ResetSystem(env: Env, m: Machine, status: Status): (r: Machine)
    requires !m.halted
    ensures ResetWith(r, status)
    ensures OnlyTraceChanged(m, r) && Extends(m, r)
  {
    ReadKey(env, m).ResetSystem(ResetCold, status)
  }

  /** reset_system keeps the trace it was called with, and every call it
      adds before the reset is a key poll. */
  lemma ResetSystemExtends(env: Env, m: Machine, status: Status)
    requires !m.halted
    ensures var r := ResetSystem(env, m, status);
      && Extends(m, r) && (r.trace[|m.trace|].ReadKeyStroke? || r.trace[|m.trace|].ResetSystem?)
      && r.trace[..|m.trace|] == m.trace
      && (forall i :: |m.trace| <= i < |r.trace| - 1 ==> r.trace[i].ReadKeyStroke?)
  {
    if env.conIn {
      PollKeysEvents(env, m);
    }
  }

  /** error_print(msg, status): prints `msg`, then the status when one is
      given, then resets with EFI_SUCCESS whatever the status was. */
  function ErrorPrint(env: Env, m: Machine, msg: seq<Char16>, status: Option<Status>): (r: Machine)
    requires !m.halted
    ensures ResetWith(r, Success)
    ensures OnlyTraceChanged(m, r) && Extends(m, r)
    ensures |r.trace| > |m.trace| + 1 && r.trace[|m.trace|] == Event.Print(msg)
    ensures r.trace[|m.trace| + 1].PrintStatus? <==> status.Some?
    ensures status.Some? ==> r.trace[|m.trace| + 1] == Event.PrintStatus(status.value)
  {
    var m1 := m.Print(msg);
    var m2 := if status.Some? then m1.PrintStatus(status.value) else m1;
    ResetSystemExtends(env, m2, Success);
    ResetSystem(env, m2, Success)
  }

  /** A call that only reports: a console print, a key poll or the reset. */
  predicate Reporting(e: Event)
  {
    e.Print? || e.PrintStatus? || e.ReadKeyStroke? || e.ResetSystem?
  }

  /** Once error_print starts, every call it adds only reports: no file,
      pool or protocol service is called again. */
  lemma ErrorPrintReports(env: Env, m: Machine, msg: seq<Char16>, status: Option<Status>)
    requires !m.halted
    ensures var r := ErrorPrint(env, m, msg, status);
      forall i :: |m.trace| <= i < |r.trace| ==> Reporting(r.trace[i])
  {
    var m1 := m.Print(msg);
    var m2 := if status.Some? then m1.PrintStatus(status.value) else m1;
    ResetSystemExtends(env, m2, Success);
  }
}

=== FILE: loader.dfy ===
/** load_file2: reads the whole source file into a pool buffer with the
    two-call GetInfo size probe of EFI_FILE_PROTOCOL (section 13.5 of the
    UEFI Specification 2.8). */
module Loader {
  import opened Status
  import opened Text
  import opened Firmware
  import opened Funnel

  /** `path`, the file load_file2 reads. */
  const SourcePath: seq<Char16> := L("\\EFI\\BOOT\\TEXT\\UCS-2.TXT")

  const AllocFailedMsg: seq<Char16> := L("AllocatePool() failed.\n")

  /** The global `buffer` when it is not NULL: the pool it points to and the
      bytes held there. */
  datatype Block = Block(pool: nat, bytes: seq<Char8>)

  /** What load_file2 leaves behind: the status it returns (None when it
      never returns because error_print reset the platform), the firmware,
      and the globals `buffer_size` and `buffer`. */
  datatype Loaded = Loaded(status: Option<Status>, m: Machine, size: nat, buffer: Option<Block>)

  /** The read buffer size as written: `AllocatePool(buffer_size + 1)`. */
  function AsWrittenReadBufferSize(fileSize: nat): (n: nat)
    ensures n > fileSize
    ensures TerminatorFits(fileSize, n) <==> fileSize % 2 == 1
  {
    fileSize + 1
  }

  /** The read buffer size the model uses: FileSize plus one code unit for
      the terminator. */
  function ReadBufferSize(fileSize: nat): (n: nat)
    ensures n > fileSize && TerminatorFits(fileSize, n)
    ensures fileSize % 2 == 0 ==> n == TerminatorOffset(fileSize) + 2
  {
    fileSize + 2
  }

  /** Byte offset of `buffer[buffer_size / sizeof(CHAR16)]`. */
  function TerminatorOffset(fileSize: nat): nat
  {
    2 * (fileSize / 2)
  }

  /** The two bytes of the terminator lie inside an allocation of `capacity` bytes. */
  predicate TerminatorFits(fileSize: nat, capacity: nat)
  {
    TerminatorOffset(fileSize) + 2 <= capacity
  }

  /** A 10-byte file (five UCS-2 characters, such as "Hello") gets an 11-byte
      buffer, and the terminator store writes bytes 10 and 11. */
  lemma AsWrittenHelloOverrun()
    ensures AsWrittenReadBufferSize(10) == 11 && TerminatorOffset(10) == 10
    ensures !TerminatorFits(10, AsWrittenReadBufferSize(10))
  {
  }

  /** The terminator lies after the file's bytes exactly when the size is
      even; for an odd size it covers the file's last byte. */
  lemma TerminatorAfterFile(fileSize: nat)
    ensures TerminatorOffset(fileSize) >= fileSize <==> fileSize % 2 == 0
    ensures fileSize % 2 == 1 ==> TerminatorOffset(fileSize) == fileSize - 1
  {
  }

  /** The memory AllocatePool hands out, of `n` bytes. */
  function Stale(env: Env, n: nat): seq<Char8>
  {
    seq(n, i requires 0 <= i < n => env.stale(i))
  }

  /** `buffer[buffer_size / sizeof(CHAR16)] = 0` on the byte view. */
  function Terminate(bytes: seq<Char8>, fileSize: nat): (b: seq<Char8>)
    requires TerminatorFits(fileSize, |bytes|)
    ensures |b| == |bytes|
    ensures b[TerminatorOffset(fileSize)] == 0 && b[TerminatorOffset(fileSize) + 1] == 0
    ensures forall i :: 0 <= i < |b| && i != TerminatorOffset(fileSize) && i != TerminatorOffset(fileSize) + 1 ==>
      b[i] == bytes[i]
  {
    var t := TerminatorOffset(fileSize);
    bytes[t := 0][t + 1 := 0]
  }

  /** Read's effect on the buffer: the data read overwrites its start. */
  function Overlay(bytes: seq<Char8>, data: seq<Char8>): (b: seq<Char8>)
    requires |data| <= |bytes|
    ensures |b| == |bytes|
  {
    data + bytes[|data|..]
  }

  /** What every return of load_file2 guarantees, relative to the firmware
      state `m0` it started from: m0's calls stay first in the trace; a reset is the
      funnel's EFI_SUCCESS reset; no handle open before is closed; a
      successful return leaves exactly one new live pool, the one `buffer`
      points to, and any other return leaves the live pools as they were; a
      status that is returned is EFI_SUCCESS or an error. Handles in
      `own` belong to the stage, which may close them. */
  ghost predicate LoadedFrom(m0: Machine, r: Loaded, own: set<nat>)
  {
    && r.m.WellFormed() && r.m.handles >= m0.handles && r.m.pools >= m0.pools
    && Extends(m0, r.m)
    && (r.status.None? <==> r.m.halted)
    && (r.m.halted ==> ResetWith(r.m, Success))
    && m0.open - own <= r.m.open
    && (r.status == Some(Success) ==> r.buffer.Some? && r.buffer.value.pool !in m0.live
                                      && r.m.live == m0.live + {r.buffer.value.pool})
    && (r.status.Some? && r.status != Some(Success) ==> r.m.live == m0.live)
    && (r.status.Some? ==> r.status == Some(Success) || IsError(r.status.value))
  }

  /** load_file2(efi_simple_file_system), from the firmware state `m0` and
      the globals `buffer_size` = size0 and `buffer` = buf0: open the volume
      and the source file, then size and read it. */
  function LoadFile2(env: Env, m0: Machine, size0: nat, buf0: Option<Block>): (r: Loaded)
    requires !m0.halted && m0.WellFormed()
    ensures LoadedFrom(m0, r, {})
  {
    var (sVolume, root, m1) := m0.OpenVolume(env);
    if IsError(sVolume) then Loaded(Some(sVolume), m1, size0, buf0) else
    var (sOpen, file, m2) := m1.Open(env, root, SourcePath, ReadOnly);
    if IsError(sOpen) then Loaded(Some(sOpen), m2, size0, buf0) else
    QueryInfo(env, m2, file, size0, buf0)
  }

  /** load_file2 from the GetInfo size probe on: a GetInfo with a zero-size
      buffer, which reports the EFI_FILE_INFO size with BufferTooSmall. */
  function QueryInfo(env: Env, m2: Machine, file: nat, size0: nat, buf0: Option<Block>): (r: Loaded)
    requires !m2.halted && m2.WellFormed() && file in m2.open
    ensures LoadedFrom(m2, r, {file})
    ensures file in r.m.open <==> r.status != Some(Success)
  {
    var (sProbe, infoSize, m3) := m2.GetInfo(env, file, 0);
    if sProbe != BufferTooSmall && IsError(sProbe) then Loaded(Some(sProbe), m3, size0, buf0) else
    FetchInfo(env, m3, file, infoSize, size0, buf0)
  }

  /** load_file2 from the EFI_FILE_INFO allocation on: allocate it with the
      probed size, query again, take FileSize, free the info buffer. */
  function FetchInfo(env: Env, m3: Machine, file: nat, infoSize: nat, size0: nat, buf0: Option<Block>): (r: Loaded)
    requires !m3.halted && m3.WellFormed() && file in m3.open
    ensures LoadedFrom(m3, r, {file})
    ensures file in r.m.open <==> r.status != Some(Success)
  {
    var (info, m4) := m3.AllocatePool(env, infoSize);
    if info.None? then Loaded(None, ErrorPrint(env, m4, AllocFailedMsg, None), size0, buf0) else
    var (sInfo, _, m5) := m4.GetInfo(env, file, infoSize);
    if IsError(sInfo) then Loaded(Some(sInfo), m5.FreePool(info.value), size0, buf0) else
    ReadWhole(env, m5.FreePool(info.value), file, env.fileSize, buf0)
  }

  /** load_file2 from the read buffer allocation on: allocate FileSize plus
      one code unit, store the terminator, Read, Close; on a Read or Close
      error free the buffer and set `buffer` back to NULL. */
  function ReadWhole(env: Env, m6: Machine, file: nat, fileSize: nat, buf0: Option<Block>): (r: Loaded)
    requires !m6.halted && m6.WellFormed() && file in m6.open
    ensures LoadedFrom(m6, r, {file})
    ensures file in r.m.open <==> r.status != Some(Success)
  {
    var (p, m7) := m6.AllocatePool(env, ReadBufferSize(fileSize));
    if p.None? then Loaded(None, ErrorPrint(env, m7, AllocFailedMsg, None), fileSize, buf0) else
    ReadInto(env, m7, file, fileSize, Block(p.value, Terminate(Stale(env, ReadBufferSize(fileSize)), fileSize)))
  }

  /** The end of load_file2, once `buffer` is the live pool `b`: Read at
      most FileSize bytes into it, then Close; on a Read or Close error free
      the pool and set `buffer` back to NULL. It always returns. */
  function ReadInto(env: Env, m7: Machine, file: nat, fileSize: nat, b: Block): (r: Loaded)
    requires !m7.halted && m7.WellFormed() && file in m7.open && b.pool in m7.live
    requires fileSize <= |b.bytes|
    ensures r.status.Some? && !r.m.halted && r.m.WellFormed()
    ensures r.m.handles == m7.handles && r.m.pools == m7.pools && |m7.trace| < |r.m.trace|
    ensures m7.open - {file} <= r.m.open && (file in r.m.open <==> r.status != Some(Success))
    ensures r.status == Some(Success) ==> r.buffer.Some? && r.buffer.value.pool == b.pool && r.m.live == m7.live
    ensures r.status != Some(Success) ==>
      r.buffer.None? && r.m.live == m7.live - {b.pool} && IsError(r.status.value)
  {
    var (sRead, data, m8) := m7.Read(env, file, fileSize);
    if IsError(sRead) then Loaded(Some(sRead), m8.FreePool(b.pool), fileSize, None) else
    var (sClose, m9) := m8.Close(env, file);
    if IsError(sClose) then Loaded(Some(sClose), m9.FreePool(b.pool), |data|, None) else
    Loaded(Some(Success), m9, |data|, Some(Block(b.pool, Overlay(b.bytes, data))))
  }

  /** With OpenVolume and Open not failing, load_file2 goes on to the size
      probe on the newly opened source file. */
  lemma OpensThenQueries(env: Env, m0: Machine, size0: nat, buf0: Option<Block>)
    requires !m0.halted && m0.WellFormed()
    requires !IsError(AnswerAt(env, m0.next)) && !IsError(AnswerAt(env, m0.next + 1))
    ensures var (_, root, m1) := m0.OpenVolume(env);
      var (_, file, m2) := m1.Open(env, root, SourcePath, ReadOnly);
      && root == m0.handles && file == m0.handles + 1 && m2.next == m0.next + 2
      && m2.pools == m0.pools && m2.live == m0.live && m2.open == m0.open + {root, file}
      && m2.trace == m0.trace + [Event.OpenVolume(AnswerAt(env, m0.next)),
                                 Event.Open(SourcePath, ReadOnly, AnswerAt(env, m0.next + 1))]
      && LoadFile2(env, m0, size0, buf0) == QueryInfo(env, m2, file, size0, buf0)
  {
  }

  /** A probe that fails with anything but BufferTooSmall is returned as it
      is, before any allocation, leaving the globals as they were. */
  lemma ProbeErrorReturnsBeforeAllocation(env: Env, m0: Machine, size0: nat, buf0: Option<Block>)
    requires !m0.halted && m0.WellFormed()
    requires !IsError(AnswerAt(env, m0.next)) && !IsError(AnswerAt(env, m0.next + 1))
    requires IsError(AnswerAt(env, m0.next + 2)) && AnswerAt(env, m0.next + 2) != BufferTooSmall
    ensures var r := LoadFile2(env, m0, size0, buf0);
      && r.status == Some(AnswerAt(env, m0.next + 2))
      && r.m.live == m0.live && r.m.pools == m0.pools
      && r.size == size0 && r.buffer == buf0
      && forall i :: |m0.trace| <= i < |r.m.trace| ==> !r.m.trace[i].AllocatePool?
  {
    OpensThenQueries(env, m0, size0, buf0);
  }

  /** The info stage keeps the trace it started from, and its first call is
      the EFI_FILE_INFO allocation with the probed size. */
  lemma FetchStart(env: Env, m3: Machine, file: nat, infoSize: nat, size0: nat, buf0: Option<Block>)
    requires !m3.halted && m3.WellFormed() && file in m3.open
    ensures var r := FetchInfo(env, m3, file, infoSize, size0, buf0);
      && Extends(m3, r.m) && |r.m.trace| > |m3.trace|
      && r.m.trace[|m3.trace|] == Event.AllocatePool(infoSize, !IsError(AnswerAt(env, m3.next)))
  {
    var (info, m4) := m3.AllocatePool(env, infoSize);
    var r := FetchInfo(env, m3, file, infoSize, size0, buf0);
    assert Extends(m4, r.m);
  }

  /** The first two calls of the probe stage: GetInfo with size 0, then, for
      a BufferTooSmall or non-error answer, the info buffer allocation. */
  lemma QueryStart(env: Env, m2: Machine, file: nat, size0: nat, buf0: Option<Block>)
    requires !m2.halted && m2.WellFormed() && file in m2.open
    requires AnswerAt(env, m2.next) == BufferTooSmall || !IsError(AnswerAt(env, m2.next))
    ensures var r := QueryInfo(env, m2, file, size0, buf0);
      var probe := AnswerAt(env, m2.next);
      && |r.m.trace| > |m2.trace| + 1
      && r.m.trace[|m2.trace|] == Event.GetInfo(file, 0, probe)
      && r.m.trace[|m2.trace| + 1] == Event.AllocatePool(
           if probe == BufferTooSmall then env.infoSize else 0, !IsError(AnswerAt(env, m2.next + 1)))
  {
    var (probe, infoSize, m3) := m2.GetInfo(env, file, 0);
    var r := FetchInfo(env, m3, file, infoSize, size0, buf0);
    assert QueryInfo(env, m2, file, size0, buf0) == r;
    FetchStart(env, m3, file, infoSize, size0, buf0);
    assert r.m.trace[|m2.trace|] == m3.trace[|m2.trace|];
  }

  /** A probe that returns BufferTooSmall, or that does not fail, goes on to
      allocate the info buffer: of the size the probe asked for, or of the
      size 0 it was given. */
  lemma ProbeFallsThroughToAllocation(env: Env, m0: Machine, size0: nat, buf0: Option<Block>)
    requires !m0.halted && m0.WellFormed()
    requires !IsError(AnswerAt(env, m0.next)) && !IsError(AnswerAt(env, m0.next + 1))
    requires AnswerAt(env, m0.next + 2) == BufferTooSmall || !IsError(AnswerAt(env, m0.next + 2))
    ensures var r := LoadFile2(env, m0, size0, buf0);
      var probe := AnswerAt(env, m0.next + 2);
      && |r.m.trace| > |m0.trace| + 3
      && r.m.trace[|m0.trace| + 2] == Event.GetInfo(m0.handles + 1, 0, probe)
      && r.m.trace[|m0.trace| + 3] == Event.AllocatePool(
           if probe == BufferTooSmall then env.infoSize else 0, !IsError(AnswerAt(env, m0.next + 3)))
  {
    OpensThenQueries(env, m0, size0, buf0);
    var (_, root, m1) := m0.OpenVolume(env);
    var (_, file, m2) := m1.Open(env, root, SourcePath, ReadOnly);
    QueryStart(env, m2, file, size0, buf0);
  }

  /** With a probe and an info query that do not fail and an info buffer
      that is granted, the stage frees the info buffer and reads the file
      with FileSize from the query. */
  lemma QueriesThenReads(env: Env, m2: Machine, file: nat, size0: nat, buf0: Option<Block>)
    requires !m2.halted && m2.WellFormed() && file in m2.open
    requires AnswerAt(env, m2.next) == BufferTooSmall || !IsError(AnswerAt(env, m2.next))
    requires !IsError(AnswerAt(env, m2.next + 1)) && !IsError(AnswerAt(env, m2.next + 2))
    ensures var (probe, infoSize, m3) := m2.GetInfo(env, file, 0);
      var (info, m4) := m3.AllocatePool(env, infoSize);
      var (_, _, m5) := m4.GetInfo(env, file, infoSize);
      var m6 := m5.FreePool(m2.pools);
      && info == Some(m2.pools) && m6.next == m2.next + 3 && m6.pools == m2.pools + 1
      && m6.live == m2.live && m6.open == m2.open && m6.handles == m2.handles
      && |m6.trace| == |m2.trace| + 4 && Extends(m2, m6)
      && QueryInfo(env, m2, file, size0, buf0) == ReadWhole(env, m6, file, env.fileSize, buf0)
  {
  }

  /** The first two calls of the read stage: the read buffer allocation of
      FileSize plus one code unit, then, when it is granted, a Read of
      FileSize bytes. */
  lemma ReadStart(env: Env, m6: Machine, file: nat, fileSize: nat, buf0: Option<Block>)
    requires !m6.halted && m6.WellFormed() && file in m6.open
    requires !IsError(AnswerAt(env, m6.next))
    ensures var r := ReadWhole(env, m6, file, fileSize, buf0);
      && |r.m.trace| > |m6.trace| + 1
      && r.m.trace[|m6.trace|] == Event.AllocatePool(ReadBufferSize(fileSize), true)
      && r.m.trace[|m6.trace| + 1] == Event.Read(file, fileSize, AnswerAt(env, m6.next + 1))
  {
    var (p, m7) := m6.AllocatePool(env, ReadBufferSize(fileSize));
    var (sRead, data, m8) := m7.Read(env, file, fileSize);
    var r := ReadWhole(env, m6, file, fileSize, buf0);
    assert Extends(m8, r.m);
  }

  /** Once both GetInfo calls succeed, the read buffer is FileSize plus one
      code unit, and Read is asked for FileSize bytes. */
  lemma ReadBufferIsSizedFromFileSize(env: Env, m0: Machine, size0: nat, buf0: Option<Block>)
    requires !m0.halted && m0.WellFormed()
    requires !IsError(AnswerAt(env, m0.next)) && !IsError(AnswerAt(env, m0.next + 1))
    requires AnswerAt(env, m0.next + 2) == BufferTooSmall || !IsError(AnswerAt(env, m0.next + 2))
    requires !IsError(AnswerAt(env, m0.next + 3)) && !IsError(AnswerAt(env, m0.next + 4))
    requires !IsError(AnswerAt(env, m0.next + 5))
    ensures var r := LoadFile2(env, m0, size0, buf0);
      && |r.m.trace| > |m0.trace| + 7
      && r.m.trace[|m0.trace| + 6] == Event.AllocatePool(ReadBufferSize(env.fileSize), true)
      && r.m.trace[|m0.trace| + 7] == Event.Read(m0.handles + 1, env.fileSize, AnswerAt(env, m0.next + 6))
  {
    OpensThenQueries(env, m0, size0, buf0);
    var (_, root, m1) := m0.OpenVolume(env);
    var (_, file, m2) := m1.Open(env, root, SourcePath, ReadOnly);
    QueriesThenReads(env, m2, file, size0, buf0);
    var (probe, infoSize, m3) := m2.GetInfo(env, file, 0);
    var (info, m4) := m3.AllocatePool(env, infoSize);
    var (_, _, m5) := m4.GetInfo(env, file, infoSize);
    var m6 := m5.FreePool(m2.pools);
    ReadStart(env, m6, file, env.fileSize, buf0);
  }

  /** In the read stage, a Read or Close error after a granted allocation
      frees the read buffer last. */
  lemma ReadStageError(env: Env, m6: Machine, file: nat, fileSize: nat, buf0: Option<Block>)
    requires !m6.halted && m6.WellFormed() && file in m6.open
    requires !IsError(AnswerAt(env, m6.next))
    requires IsError(AnswerAt(env, m6.next + 1)) || IsError(AnswerAt(env, m6.next + 2))
    ensures var r := ReadWhole(env, m6, file, fileSize, buf0);
      && r.status == Some(if IsError(AnswerAt(env, m6.next + 1)) then AnswerAt(env, m6.next + 1)
                          else AnswerAt(env, m6.next + 2))
      && r.buffer.None? && r.m.live == m6.live
      && r.m.trace[|r.m.trace| - 1] == Event.FreePool(m6.pools)
  {
  }

  /** A Read or Close error frees the read buffer, sets `buffer` back to NULL
      and returns that error. */
  lemma ReadOrCloseErrorClearsBuffer(env: Env, m0: Machine, size0: nat, buf0: Option<Block>)
    requires !m0.halted && m0.WellFormed()
    requires !IsError(AnswerAt(env, m0.next)) && !IsError(AnswerAt(env, m0.next + 1))
    requires AnswerAt(env, m0.next + 2) == BufferTooSmall || !IsError(AnswerAt(env, m0.next + 2))
    requires !IsError(AnswerAt(env, m0.next + 3)) && !IsError(AnswerAt(env, m0.next + 4))
    requires !IsError(AnswerAt(env, m0.next + 5))
    requires IsError(AnswerAt(env, m0.next + 6)) || IsError(AnswerAt(env, m0.next + 7))
    ensures var r := LoadFile2(env, m0, size0, buf0);
      && r.status == Some(if IsError(AnswerAt(env, m0.next + 6)) then AnswerAt(env, m0.next + 6)
                          else AnswerAt(env, m0.next + 7))
      && r.buffer.None? && r.m.live == m0.live
      && r.m.trace[|r.m.trace| - 1] == Event.FreePool(m0.pools + 1)
  {
    OpensThenQueries(env, m0, size0, buf0);
    var (_, root, m1) := m0.OpenVolume(env);
    var (_, file, m2) := m1.Open(env, root, SourcePath, ReadOnly);
    QueriesThenReads(env, m2, file, size0, buf0);
    var (probe, infoSize, m3) := m2.GetInfo(env, file, 0);
    var (info, m4) := m3.AllocatePool(env, infoSize);
    var (_, _, m5) := m4.GetInfo(env, file, infoSize);
    var m6 := m5.FreePool(m2.pools);
    assert LoadFile2(env, m0, size0, buf0) == ReadWhole(env, m6, file, env.fileSize, buf0);
    ReadStageError(env, m6, file, env.fileSize, buf0);
  }

  /** On success `buffer` holds the bytes read, then whatever of the
      terminator and of the pool's old contents the read did not cover; for
      a file of even size that is read in full, that is exactly the file
      followed by one zero code unit. */
  predicate HoldsFile(env: Env, r: Loaded, fileSize: nat)
  {
    && r.buffer.Some? && |r.buffer.value.bytes| == ReadBufferSize(fileSize)
    && r.size <= fileSize && r.size <= |env.fileData|
    && r.buffer.value.bytes[..r.size] == env.fileData[..r.size]
    && (fileSize % 2 == 0 && |env.fileData| >= fileSize ==>
          r.buffer.value.bytes == env.fileData[..fileSize] + [0, 0])
  }

  /** The read stage's successful return holds the file. */
  lemma ReadWholeHoldsFile(env: Env, m6: Machine, file: nat, fileSize: nat, buf0: Option<Block>)
    requires !m6.halted && m6.WellFormed() && file in m6.open
    requires ReadWhole(env, m6, file, fileSize, buf0).status == Some(Success)
    ensures HoldsFile(env, ReadWhole(env, m6, file, fileSize, buf0), fileSize)
  {
    var r := ReadWhole(env, m6, file, fileSize, buf0);
    var b := r.buffer.value.bytes;
    if fileSize % 2 == 0 && |env.fileData| >= fileSize {
      assert r.size == fileSize;
      assert b[fileSize] == 0 && b[fileSize + 1] == 0;
      assert b == b[..fileSize] + [b[fileSize], b[fileSize + 1]];
    }
  }

  /** A successful load_file2 holds the source file in `buffer`. */
  lemma SuccessHoldsFileAndTerminator(env: Env, m0: Machine, size0: nat, buf0: Option<Block>)
    requires !m0.halted && m0.WellFormed()
    requires LoadFile2(env, m0, size0, buf0).status == Some(Success)
    ensures HoldsFile(env, LoadFile2(env, m0, size0, buf0), env.fileSize)
  {
    var (sVolume, root, m1) := m0.OpenVolume(env);
    var (sOpen, file, m2) := m1.Open(env, root, SourcePath, ReadOnly);
    assert LoadFile2(env, m0, size0, buf0) == QueryInfo(env, m2, file, size0, buf0);
    var (probe, infoSize, m3) := m2.GetInfo(env, file, 0);
    assert QueryInfo(env, m2, file, size0, buf0) == FetchInfo(env, m3, file, infoSize, size0, buf0);
    var (info, m4) := m3.AllocatePool(env, infoSize);
    var (sInfo, _, m5) := m4.GetInfo(env, file, infoSize);
    var m6 := m5.FreePool(info.value);
    assert FetchInfo(env, m3, file, infoSize, size0, buf0) == ReadWhole(env, m6, file, env.fileSize, buf0);
    ReadWholeHoldsFile(env, m6, file, env.fileSize, buf0);
  }

  /** The root handle from OpenVolume is never closed; the source file handle
      is closed exactly on the successful return. */
  lemma HandlesLeftOpen(env: Env, m0: Machine, size0: nat, buf0: Option<Block>)
    requires !m0.halted && m0.WellFormed()
    requires !IsError(AnswerAt(env, m0.next))
    ensures m0.handles in LoadFile2(env, m0, size0, buf0).m.open
    ensures !IsError(AnswerAt(env, m0.next + 1)) ==>
      var r := LoadFile2(env, m0, size0, buf0);
      m0.handles + 1 !in r.m.open <==> r.status == Some(Success)
  {
    var (_, root, m1) := m0.OpenVolume(env);
    var (sOpen, file, m2) := m1.Open(env, root, SourcePath, ReadOnly);
    if !IsError(sOpen) {
      OpensThenQueries(env, m0, size0, buf0);
      assert root in m2.open - {file};
    }
  }
}

=== FILE: pipeline.dfy ===
/** Whole runs of efi_main: the calls it makes, in order, for the early
    exits of init and for a run in which the firmware grants everything. */
module Pipeline {
  import opened Status
  import opened Text
  import opened Firmware
  import opened Funnel
  import opened Loader
  import opened Boot

  /** Without a console input device, efi_main prints the input message and
      resets at once: there is no key to wait for. */
  lemma NoConsoleInput(env: Env, m0: Machine)
    requires !m0.halted && m0.WellFormed() && !env.conIn
    ensures EfiMain(env, m0).trace == m0.trace + [Event.Print(InputFailedMsg), Event.ResetSystem(ResetCold, Success)]
  {
    var m1 := m0.Print(InputFailedMsg);
    assert EfiMain(env, m0) == m1.ResetSystem(ResetCold, Success);
  }

  /** When ConIn->Reset does not return EFI_SUCCESS (a warning included),
      efi_main prints the input message and that status, waits for a key and
      resets; nothing else is called. */
  lemma ConsoleResetFails(env: Env, m0: Machine)
    requires !m0.halted && m0.WellFormed() && env.conIn && AnswerAt(env, m0.next) != Success
    ensures var r, k, s := EfiMain(env, m0), |m0.trace|, AnswerAt(env, m0.next);
      && |r.trace| > k + 3
      && r.trace[..k + 3] == m0.trace + [Event.ConInReset(s), Event.Print(InputFailedMsg), Event.PrintStatus(s)]
      && (forall i :: k + 3 <= i < |r.trace| - 1 ==> r.trace[i].ReadKeyStroke?)
      && r.trace[|r.trace| - 1] == Event.ResetSystem(ResetCold, Success)
  {
    var (s, m1) := m0.ConInReset(env);
    var m3 := m1.Print(InputFailedMsg).PrintStatus(s);
    assert m3.trace == m0.trace + [Event.ConInReset(s), Event.Print(InputFailedMsg), Event.PrintStatus(s)];
    PollKeysEvents(env, m3);
    assert EfiMain(env, m0) == PollKeys(env, m3).ResetSystem(ResetCold, Success);
  }

  /** The firmware of a typical run whose first fallible call is numbered
      `n`: ConIn is present, and every fallible call is granted except the
      first GetInfo of load_file2, made with a zero-size buffer, which
      reports BufferTooSmall. That probe is call n + 12; the run makes 22
      fallible calls. */
  ghost predicate Typical(env: Env, n: nat)
  {
    env.conIn && Granted(env, n, 2) && LoadsAt(env, n + 2, 10) && Granted(env, n + 18, 4)
  }

  /** The `n` fallible calls from the call numbered `k` on all succeed. */
  ghost predicate Granted(env: Env, k: nat, n: nat)
  {
    forall i :: k <= i < k + n ==> AnswerAt(env, i) == Success
  }

  /** From the call numbered `k` on: `n` granted calls, then load_file2's
      size probe reporting BufferTooSmall, then the five calls that allocate,
      query, read and close, all granted. */
  ghost predicate LoadsAt(env: Env, k: nat, n: nat)
  {
    Granted(env, k, n) && AnswerAt(env, k + n) == BufferTooSmall && Granted(env, k + n + 1, 5)
  }

  /** How many bytes Read delivers from a file of `fileSize` bytes. */
  function ReadCount(env: Env): (n: nat)
    ensures n <= env.fileSize && n <= |env.fileData|
    ensures n == env.fileSize || n == |env.fileData|
  {
    if env.fileSize < |env.fileData| then env.fileSize else |env.fileData|
  }

  /** The bytes `buffer` holds after a read of the whole file into pool
      memory that held env.stale. */
  function SourceBytes(env: Env): (b: seq<Char8>)
    ensures |b| == ReadBufferSize(env.fileSize)
    ensures b[..ReadCount(env)] == env.fileData[..ReadCount(env)]
  {
    Overlay(Terminate(Stale(env, ReadBufferSize(env.fileSize)), env.fileSize), env.fileData[..ReadCount(env)])
  }

  /** The call init makes between the console reset and open_print_info. */
  function StartEvents(env: Env): seq<Event>
  {
    [ Event.OpenProtocol(env.imageHandle, LoadedImageProtocol, Success) ]
  }

  /** The calls of a granted open_print_info: the volume's root becomes
      handle `root` and the log file handle `root + 1`. */
  function OpenLogEvents(env: Env, root: nat): seq<Event>
  {
    [ Event.OpenProtocol(env.deviceHandle, FileSystemProtocol, Success),
      Event.OpenVolume(Success),
      Event.Open(LogPath, ReadWriteCreate, Success),
      Event.Close(root, Success) ]
  }

  /** The calls of a granted print_device_path, the string being pool
      `pool` and the log file `file`. */
  function DevicePathEvents(env: Env, file: nat, pool: nat): seq<Event>
  {
    [ Event.OpenProtocol(env.deviceHandle, DevicePathProtocol, Success),
      Event.DevicePathToStr(true),
      Event.Print(ConsoleLine(DevicePathLine, env.devicePathText)),
      Event.Write(file, LogBytes(DevicePathLine, env.devicePathText), Success),
      Event.FreePool(pool) ]
  }

  /** The calls of a granted load_file2 from the read buffer allocation on,
      `file` being the source file. */
  function ReadEvents(env: Env, file: nat): seq<Event>
  {
    [ Event.AllocatePool(ReadBufferSize(env.fileSize), true),
      Event.Read(file, env.fileSize, Success),
      Event.Close(file, Success) ]
  }

  /** The calls of a typical load_file2 after the volume and the file are
      open: the probe, the info pool `pool`, then the read. */
  function InfoEvents(env: Env, file: nat, pool: nat): seq<Event>
  {
    [ Event.GetInfo(file, 0, BufferTooSmall),
      Event.AllocatePool(env.infoSize, true),
      Event.GetInfo(file, env.infoSize, Success),
      Event.FreePool(pool) ] + ReadEvents(env, file)
  }

  /** The calls of a typical load_file2 when the next handle is `root`. */
  function LoadEvents(env: Env, root: nat, pool: nat): seq<Event>
  {
    [ Event.OpenVolume(Success), Event.Open(SourcePath, ReadOnly, Success) ] + InfoEvents(env, root + 1, pool)
  }

  /** The calls of efi_main after init when they are all granted, before
      the final key wait: the three log lines to `file`, the log's Close,
      and the FreePool of `pool`, which holds `bytes`. */
  function FinishEvents(env: Env, file: nat, pool: nat, bytes: seq<Char8>): seq<Event>
  {
    var text := Units(bytes);
    [ Event.Print(ConsoleLine(MessageLine, text)),
      Event.Write(file, LogBytes(MessageLine, text), Success),
      Event.Print(ConsoleLine(StatusLine, env.statusText(Success))),
      Event.Write(file, LogBytes(StatusLine, env.statusText(Success)), Success),
      Event.Print(ConsoleLine(PlainLine, PressKeyMsg)),
      Event.Write(file, LogBytes(PlainLine, PressKeyMsg), Success),
      Event.Close(file, Success),
      Event.FreePool(pool) ]
  }

  /** Eight calls appended two, two, two, one and one at a time. */
  lemma Concat8<T>(t: seq<T>, a: T, b: T, c: T, d: T, e: T, f: T, g: T, h: T)
    ensures t + [a, b] + [c, d] + [e, f] + [g] + [h] == t + [a, b, c, d, e, f, g, h]
  {
  }

  /** The firmware `m` is running and well formed, and its next call, handle
      and pool are numbered `n`, `h` and `q`. */
  ghost predicate At(m: Machine, n: nat, h: nat, q: nat)
  {
    !m.halted && m.WellFormed() && m.next == n && m.handles == h && m.pools == q
  }

  /** `r` is what the firmware `m` became after a run of granted calls that
      left it at these counters, handle and pool sets and trace; the key
      script was not touched. */
  ghost predicate Became(m: Machine, r: Machine, next: nat, handles: nat, pools: nat,
                         open: set<int>, live: set<int>, trace: seq<Event>)
  {
    && !r.halted && r.next == next && r.keysRead == m.keysRead && r.handles == handles && r.pools == pools
    && r.open == open && r.live == live && r.trace == trace
  }

  /** A load that succeeded with the whole source file read into pool
      `pool`. */
  ghost predicate LoadedSource(env: Env, l: Loaded, pool: nat)
  {
    l.status == Some(Success) && l.size == ReadCount(env) && l.buffer == Some(Block(pool, SourceBytes(env)))
  }

  /** The globals of a typical init: the image handle, the loaded image's
      device, the log file `file`, and the source text read into pool
      `pool`. */
  ghost predicate Globals(env: Env, st: State, file: nat, pool: nat)
  {
    && st.ih == env.imageHandle && st.loadedImage == Some(env.deviceHandle) && st.writeFile == Some(file)
    && st.bufferSize == ReadCount(env) && st.buffer == Some(Block(pool, SourceBytes(env)))
  }

  /** write_print_info when the Write is granted: the console line, then
      the log line, and nothing else changes. */
  lemma WritePrintInfoGranted(env: Env, m: Machine, file: nat, t: Template, param: seq<Char16>)
    requires !m.halted && m.WellFormed() && file in m.open && Granted(env, m.next, 1)
    ensures WritePrintInfo(env, m, Some(file), t, Some(param)) ==
      m.(next := m.next + 1,
         trace := m.trace + [Event.Print(ConsoleLine(t, param)), Event.Write(file, LogBytes(t, param), Success)])
  {
    assert AnswerAt(env, m.next) == Success;
    var m1 := m.Print(ConsoleLine(t, param));
    var (s, m2) := m1.Write(env, file, LogBytes(t, param));
    assert m2.trace == m.trace + [Event.Print(ConsoleLine(t, param)), Event.Write(file, LogBytes(t, param), Success)];
  }

  /** close_print_info when the Close is granted: the handle is released. */
  lemma ClosePrintInfoGranted(env: Env, m: Machine, file: nat)
    requires !m.halted && m.WellFormed() && file in m.open && Granted(env, m.next, 1)
    ensures ClosePrintInfo(env, m, Some(file)) ==
      m.(next := m.next + 1, open := m.open - {file}, trace := m.trace + [Event.Close(file, Success)])
  {
    assert AnswerAt(env, m.next) == Success;
  }

  /** open_print_info when its four calls are granted. */
  lemma OpenPrintInfoGranted(env: Env, m: Machine, n: nat, h: nat, q: nat)
    requires At(m, n, h, q) && Granted(env, n, 4)
    ensures var r := OpenPrintInfo(env, m, env.deviceHandle);
      && r.0 == Some(h + 1) && r.1.WellFormed()
      && Became(m, r.1, n + 4, h + 2, q, m.open + {h + 1}, m.live, m.trace + OpenLogEvents(env, h))
  {
    assert AnswerAt(env, m.next) == Success && AnswerAt(env, m.next + 1) == Success;
    assert AnswerAt(env, m.next + 2) == Success && AnswerAt(env, m.next + 3) == Success;
    var (sFs, m1) := m.OpenProtocol(env, env.deviceHandle, FileSystemProtocol);
    var (sVolume, root, m2) := m1.OpenVolume(env);
    var (sOpen, file, m3) := m2.Open(env, root, LogPath, ReadWriteCreate);
    var (sClose, m4) := m3.Close(env, root);
    assert OpenPrintInfo(env, m, env.deviceHandle) == (Some(file), m4);
    assert m4.trace == m.trace + OpenLogEvents(env, m.handles);
  }

  /** print_device_path when its three calls are granted. */
  lemma PrintDevicePathGranted(env: Env, m: Machine, log: Option<nat>, file: nat, n: nat, h: nat, q: nat)
    requires At(m, n, h, q) && log == Some(file) && file in m.open && Granted(env, n, 3)
    ensures var r := PrintDevicePath(env, m, env.deviceHandle, log);
      && r.WellFormed() && Became(m, r, n + 3, h, q + 1, m.open, m.live, m.trace + DevicePathEvents(env, file, q))
  {
    assert AnswerAt(env, m.next) == Success && AnswerAt(env, m.next + 1) == Success;
    var (s, m1) := m.OpenProtocol(env, env.deviceHandle, DevicePathProtocol);
    var (p, m2) := m1.DevicePathToStr(env);
    WritePrintInfoGranted(env, m2, file, DevicePathLine, env.devicePathText);
    var m3 := WritePrintInfo(env, m2, Some(file), DevicePathLine, Some(env.devicePathText));
    assert PrintDevicePath(env, m, env.deviceHandle, log) == m3.FreePool(m.pools);
    assert m3.FreePool(m.pools).trace == m.trace + DevicePathEvents(env, file, m.pools);
  }

  /** The read stage of load_file2 when its three calls are granted. */
  lemma ReadWholeGranted(env: Env, m: Machine, file: nat, buf0: Option<Block>)
    requires !m.halted && m.WellFormed() && file in m.open && Granted(env, m.next, 3)
    ensures ReadWhole(env, m, file, env.fileSize, buf0) ==
      Loaded(Some(Success),
             m.(next := m.next + 3, pools := m.pools + 1, open := m.open - {file}, live := m.live + {m.pools},
                trace := m.trace + ReadEvents(env, file)),
             ReadCount(env), Some(Block(m.pools, SourceBytes(env))))
  {
    assert AnswerAt(env, m.next) == Success && AnswerAt(env, m.next + 1) == Success;
    assert AnswerAt(env, m.next + 2) == Success;
    var (p, m7) := m.AllocatePool(env, ReadBufferSize(env.fileSize));
    var b := Block(p.value, Terminate(Stale(env, ReadBufferSize(env.fileSize)), env.fileSize));
    var (sRead, data, m8) := m7.Read(env, file, env.fileSize);
    assert data == env.fileData[..ReadCount(env)];
    var (sClose, m9) := m8.Close(env, file);
    assert ReadInto(env, m7, file, env.fileSize, b) == Loaded(Some(Success), m9, |data|, Some(Block(b.pool, Overlay(b.bytes, data))));
    assert m9.trace == m.trace + ReadEvents(env, file);
  }

  /** The info stage of load_file2 when the probe reports BufferTooSmall and
      the two calls after it are granted: four calls, one pool, then the
      read stage. */
  lemma InfoGranted(env: Env, m: Machine, file: nat, buf0: Option<Block>)
    requires !m.halted && m.WellFormed() && file in m.open
    requires AnswerAt(env, m.next) == BufferTooSmall && Granted(env, m.next + 1, 2)
    ensures QueryInfo(env, m, file, 0, buf0) ==
      ReadWhole(env, m.(next := m.next + 3, pools := m.pools + 1,
                        trace := m.trace + [ Event.GetInfo(file, 0, BufferTooSmall),
                                             Event.AllocatePool(env.infoSize, true),
                                             Event.GetInfo(file, env.infoSize, Success),
                                             Event.FreePool(m.pools) ]),
                file, env.fileSize, buf0)
  {
    assert AnswerAt(env, m.next + 1) == Success && AnswerAt(env, m.next + 2) == Success;
    QueriesThenReads(env, m, file, 0, buf0);
    var (sProbe, infoSize, m3) := m.GetInfo(env, file, 0);
    var (info, m4) := m3.AllocatePool(env, infoSize);
    var (sInfo, _, m5) := m4.GetInfo(env, file, infoSize);
    var m6 := m5.FreePool(m.pools);
    assert m6.trace == m.trace + [ Event.GetInfo(file, 0, BufferTooSmall),
                                   Event.AllocatePool(env.infoSize, true),
                                   Event.GetInfo(file, env.infoSize, Success),
                                   Event.FreePool(m.pools) ];
  }

  /** load_file2 from the size probe on, when the probe reports
      BufferTooSmall and the five calls after it are granted. */
  lemma QueryInfoTypical(env: Env, m: Machine, file: nat, buf0: Option<Block>)
    requires !m.halted && m.WellFormed() && file in m.open
    requires AnswerAt(env, m.next) == BufferTooSmall && Granted(env, m.next + 1, 5)
    ensures QueryInfo(env, m, file, 0, buf0) ==
      Loaded(Some(Success),
             m.(next := m.next + 6, pools := m.pools + 2, open := m.open - {file}, live := m.live + {m.pools + 1},
                trace := m.trace + InfoEvents(env, file, m.pools)),
             ReadCount(env), Some(Block(m.pools + 1, SourceBytes(env))))
  {
    InfoGranted(env, m, file, buf0);
    var m6 := m.(next := m.next + 3, pools := m.pools + 1,
                 trace := m.trace + [ Event.GetInfo(file, 0, BufferTooSmall),
                                      Event.AllocatePool(env.infoSize, true),
                                      Event.GetInfo(file, env.infoSize, Success),
                                      Event.FreePool(m.pools) ]);
    assert Granted(env, m6.next, 3);
    ReadWholeGranted(env, m6, file, buf0);
    assert m6.trace + ReadEvents(env, file) == m.trace + InfoEvents(env, file, m.pools);
  }

  /** A typical load_file2: the volume and the file open, the probe reports
      BufferTooSmall, and every other call is granted. */
  lemma LoadFile2Typical(env: Env, m: Machine, n: nat, h: nat, q: nat)
    requires At(m, n, h, q) && LoadsAt(env, n, 2)
    ensures var l := LoadFile2(env, m, 0, None);
      && LoadedSource(env, l, q + 1)
      && Became(m, l.m, n + 8, h + 2, q + 2, m.open + {h}, m.live + {q + 1}, m.trace + LoadEvents(env, h, q))
  {
    assert AnswerAt(env, m.next) == Success && AnswerAt(env, m.next + 1) == Success;
    var (sVolume, root, m1) := m.OpenVolume(env);
    var (sOpen, file, m2) := m1.Open(env, root, SourcePath, ReadOnly);
    assert LoadFile2(env, m, 0, None) == QueryInfo(env, m2, file, 0, None);
    QueryInfoTypical(env, m2, file, None);
    assert m2.open - {file} == m.open + {m.handles};
    assert m2.trace + InfoEvents(env, file, m.pools) == m.trace + LoadEvents(env, m.handles, m.pools);
  }

  /** The rest of load_file when the file system protocol is granted and
      load_file2 is typical. */
  lemma LoadSourceTypical(env: Env, m: Machine, n: nat, h: nat, q: nat)
    requires At(m, n, h, q) && AnswerAt(env, n) == Success && LoadsAt(env, n + 1, 2)
    ensures var l := LoadSource(env, m, env.deviceHandle, 0, None);
      && LoadedSource(env, l, q + 1)
      && Became(m, l.m, n + 9, h + 2, q + 2, m.open + {h}, m.live + {q + 1},
                m.trace + [Event.OpenProtocol(env.deviceHandle, FileSystemProtocol, Success)] + LoadEvents(env, h, q))
  {
    var (sFs, m2) := m.OpenProtocol(env, env.deviceHandle, FileSystemProtocol);
    LoadFile2Typical(env, m2, n + 1, h, q);
  }

  /** load_file when the whole load is granted but for the probe: the
      device path line goes to the log file `file`, then the file is read. */
  lemma LoadFileTypical(env: Env, m: Machine, log: Option<nat>, file: nat, n: nat, h: nat, q: nat)
    requires At(m, n, h, q) && log == Some(file) && file in m.open
    requires Granted(env, n, 3) && AnswerAt(env, n + 3) == Success && LoadsAt(env, n + 4, 2)
    ensures var l := LoadFile(env, m, env.deviceHandle, log, 0, None);
      && LoadedSource(env, l, q + 2)
      && Became(m, l.m, n + 12, h + 2, q + 3, m.open + {h}, m.live + {q + 2},
                m.trace + DevicePathEvents(env, file, q)
                + [Event.OpenProtocol(env.deviceHandle, FileSystemProtocol, Success)]
                + LoadEvents(env, h, q + 1))
  {
    PrintDevicePathGranted(env, m, log, file, n, h, q);
    var m1 := PrintDevicePath(env, m, env.deviceHandle, log);
    LoadSourceTypical(env, m1, n + 3, h, q + 1);
    var d, op, e := DevicePathEvents(env, file, q), [Event.OpenProtocol(env.deviceHandle, FileSystemProtocol, Success)],
      LoadEvents(env, h, q + 1);
    assert LoadSource(env, m1, env.deviceHandle, 0, None).m.trace == m1.trace + op + e;
  }

  /** Two appends in a row, regrouped. */
  lemma Chain<T>(t: seq<T>, a: seq<T>, b: seq<T>, c: seq<T>, d: seq<T>, x: seq<T>, y: seq<T>)
    requires x == t + a && y == x + b + c + d
    ensures y == t + a + b + c + d
  {
  }

  /** The answers a typical OpenFiles sees split into the log's four and
      the load's. */
  lemma LoadsShift(env: Env, n: nat)
    requires LoadsAt(env, n, 10)
    ensures Granted(env, n, 4) && Granted(env, n + 4, 3) && AnswerAt(env, n + 7) == Success && LoadsAt(env, n + 8, 2)
  {
  }

  /** The rest of a typical init once the loaded image is known: the log
      file and the source buffer it leaves behind. */
  lemma OpenFilesTypical(env: Env, m: Machine, n: nat, h: nat, q: nat)
    requires At(m, n, h, q) && LoadsAt(env, n, 10)
    ensures var r := OpenFiles(env, m);
      && Globals(env, r, h + 1, q + 2)
      && Became(m, r.m, n + 16, h + 4, q + 3, m.open + {h + 1, h + 2}, m.live + {q + 2},
                m.trace + OpenLogEvents(env, h) + DevicePathEvents(env, h + 1, q)
                + [Event.OpenProtocol(env.deviceHandle, FileSystemProtocol, Success)]
                + LoadEvents(env, h + 2, q + 1))
  {
    LoadsShift(env, n);
    OpenPrintInfoGranted(env, m, n, h, q);
    var p := OpenPrintInfo(env, m, env.deviceHandle);
    LoadFileTypical(env, p.1, p.0, h + 1, n + 4, h + 2, q);
    var l := LoadFile(env, p.1, env.deviceHandle, p.0, 0, None);
    var o, d, e := OpenLogEvents(env, h), DevicePathEvents(env, h + 1, q), LoadEvents(env, h + 2, q + 1);
    assert l.m.trace == p.1.trace + d + [Event.OpenProtocol(env.deviceHandle, FileSystemProtocol, Success)] + e;
    Chain(m.trace, o, d, [Event.OpenProtocol(env.deviceHandle, FileSystemProtocol, Success)], e, p.1.trace, l.m.trace);
  }

  /** init from the loaded image on, in a typical run. */
  lemma StartTypical(env: Env, m1: Machine, n: nat, h: nat, q: nat)
    requires At(m1, n, h, q) && AnswerAt(env, n) == Success && LoadsAt(env, n + 1, 10)
    ensures var r := Start(env, m1);
      && Globals(env, r, h + 1, q + 2)
      && Became(m1, r.m, n + 17, h + 4, q + 3, m1.open + {h + 1, h + 2}, m1.live + {q + 2},
                m1.trace + StartEvents(env) + OpenLogEvents(env, h) + DevicePathEvents(env, h + 1, q)
                + [Event.OpenProtocol(env.deviceHandle, FileSystemProtocol, Success)]
                + LoadEvents(env, h + 2, q + 1))
  {
    var (sImage, m2) := m1.OpenProtocol(env, env.imageHandle, LoadedImageProtocol);
    OpenFilesTypical(env, m2, n + 1, h, q);
  }

  /** A typical init from firmware state `m`, whose next call, handle and
      pool are numbered n, h and q: the log file is handle h + 1, the source
      text sits in pool q + 2, and the root load_file2 opened (h + 2) stays
      open. */
  lemma InitTypical(env: Env, m: Machine, n: nat, h: nat, q: nat)
    requires At(m, n, h, q) && env.conIn && Granted(env, n, 2) && LoadsAt(env, n + 2, 10)
    ensures var r := Init(env, m);
      && Globals(env, r, h + 1, q + 2)
      && Became(m, r.m, n + 18, h + 4, q + 3, m.open + {h + 1, h + 2}, m.live + {q + 2},
                m.trace + [Event.ConInReset(Success)] + StartEvents(env)
                + OpenLogEvents(env, h) + DevicePathEvents(env, h + 1, q)
                + [Event.OpenProtocol(env.deviceHandle, FileSystemProtocol, Success)]
                + LoadEvents(env, h + 2, q + 1))
  {
    var (sReset, m1) := m.ConInReset(env);
    StartTypical(env, m1, n + 1, h, q);
    var c, st, o, d, op, e := [Event.ConInReset(Success)], StartEvents(env), OpenLogEvents(env, h),
      DevicePathEvents(env, h + 1, q), [Event.OpenProtocol(env.deviceHandle, FileSystemProtocol, Success)],
      LoadEvents(env, h + 2, q + 1);
    assert Init(env, m).m.trace == m.trace + c + st + o + d + op + e;
  }

  /** The firmware `m` is running, holds the log file `file` open and the
      source buffer `pool` live, and its next four calls are granted. */
  ghost predicate FinishReady(env: Env, m: Machine, file: nat, pool: nat)
  {
    !m.halted && m.WellFormed() && file in m.open && pool in m.live && Granted(env, m.next, 4)
  }

  /** The three log lines of efi_main when their Writes are granted; the
      first carries the source text `text`. `m1`, `m2` and `m3` are the
      firmware after each of them. */
  lemma LogLinesGranted(env: Env, m: Machine, file: nat, pool: nat, text: seq<Char16>) returns (m1: Machine, m2: Machine, m3: Machine)
    requires FinishReady(env, m, file, pool)
    ensures m1 == WritePrintInfo(env, m, Some(file), MessageLine, Some(text)) && !m1.halted && m1.WellFormed() && file in m1.open
    ensures m2 == WritePrintInfo(env, m1, Some(file), StatusLine, Some(env.statusText(Success))) && !m2.halted && m2.WellFormed() && file in m2.open
    ensures m3 == WritePrintInfo(env, m2, Some(file), PlainLine, Some(PressKeyMsg))
    ensures TailReady(env, m3, file, pool) && m3.open == m.open && m3.live == m.live
    ensures m3.trace == m.trace + [Event.Print(ConsoleLine(MessageLine, text)), Event.Write(file, LogBytes(MessageLine, text), Success)]
                                + [Event.Print(ConsoleLine(StatusLine, env.statusText(Success))),
                                   Event.Write(file, LogBytes(StatusLine, env.statusText(Success)), Success)]
                                + [Event.Print(ConsoleLine(PlainLine, PressKeyMsg)), Event.Write(file, LogBytes(PlainLine, PressKeyMsg), Success)]
  {
    assert Granted(env, m.next + 1, 1) && Granted(env, m.next + 2, 1) && Granted(env, m.next + 3, 1);
    WritePrintInfoGranted(env, m, file, MessageLine, text);
    m1 := WritePrintInfo(env, m, Some(file), MessageLine, Some(text));
    WritePrintInfoGranted(env, m1, file, StatusLine, env.statusText(Success));
    m2 := WritePrintInfo(env, m1, Some(file), StatusLine, Some(env.statusText(Success)));
    WritePrintInfoGranted(env, m2, file, PlainLine, PressKeyMsg);
    m3 := WritePrintInfo(env, m2, Some(file), PlainLine, Some(PressKeyMsg));
  }

  /** The firmware `m` is running, holds the log file `file` open and the
      source buffer `pool` live, and its next call is granted. */
  ghost predicate TailReady(env: Env, m: Machine, file: nat, pool: nat)
  {
    !m.halted && m.WellFormed() && file in m.open && pool in m.live && Granted(env, m.next, 1)
  }

  /** The tail of efi_main when its Close is granted: close_print_info, the
      FreePool of the source buffer, then reset_system, whose only calls
      before the reset are key polls. `r` is the firmware it leaves. */
  lemma TailGranted(env: Env, m: Machine, file: nat, pool: nat) returns (r: Machine)
    requires TailReady(env, m, file, pool)
    ensures r == Funnel.ResetSystem(env, ClosePrintInfo(env, m, Some(file)).FreePool(pool), Success)
    ensures r == CloseAndReset(env, m, file, pool)
    ensures var k := |m.trace| + 2;
      && |r.trace| > k && r.trace[..k] == m.trace + [Event.Close(file, Success)] + [Event.FreePool(pool)]
      && (forall i :: k <= i < |r.trace| - 1 ==> r.trace[i].ReadKeyStroke?)
    ensures r.live == m.live - {pool} && r.open == m.open - {file}
  {
    ClosePrintInfoGranted(env, m, file);
    var m5 := ClosePrintInfo(env, m, Some(file)).FreePool(pool);
    assert m5.trace == m.trace + [Event.Close(file, Success)] + [Event.FreePool(pool)];
    Funnel.ResetSystemExtends(env, m5, Success);
    r := Funnel.ResetSystem(env, m5, Success);
  }

  /** efi_main after a typical init, from the globals `st`: the three log
      lines, the Close and the FreePool, then key polls until one succeeds and
      the EFI_SUCCESS cold reset. The log file and the source buffer are
      released. */
  lemma FinishTypical(env: Env, st: State, file: nat, pool: nat, bytes: seq<Char8>)
    requires FinishReady(env, st.m, file, pool) && st.writeFile == Some(file) && st.buffer == Some(Block(pool, bytes))
    ensures var r, p := Finish(env, st), st.m.trace + FinishEvents(env, file, pool, bytes);
      && |r.trace| > |p| && r.trace[..|p|] == p
      && (forall i :: |p| <= i < |r.trace| - 1 ==> r.trace[i].ReadKeyStroke?)
      && r.live == st.m.live - {pool} && r.open == st.m.open - {file}
  {
    var text, s := Units(bytes), env.statusText(Success);
    var m1, m2, m3 := LogLinesGranted(env, st.m, file, pool, text);
    var r := TailGranted(env, m3, file, pool);
    assert Finish(env, st) == r;
    var a, b := Event.Print(ConsoleLine(MessageLine, text)), Event.Write(file, LogBytes(MessageLine, text), Success);
    var c, d := Event.Print(ConsoleLine(StatusLine, s)), Event.Write(file, LogBytes(StatusLine, s), Success);
    var e, f := Event.Print(ConsoleLine(PlainLine, PressKeyMsg)), Event.Write(file, LogBytes(PlainLine, PressKeyMsg), Success);
    var g, h := Event.Close(file, Success), Event.FreePool(pool);
    Concat8(st.m.trace, a, b, c, d, e, f, g, h);
    assert st.m.trace + FinishEvents(env, file, pool, bytes) == m3.trace + [g] + [h];
  }

  /** A set gains `x` and loses it again. */
  lemma RemoveAdded(s: set<nat>, x: nat)
    requires x !in s
    ensures s + {x} - {x} == s
  {
  }

  /** A set gains `x` and `y` and loses `x` again. */
  lemma RemoveFirstAdded(s: set<nat>, x: nat, y: nat)
    requires x !in s && x != y
    ensures s + {x, y} - {x} == s + {y}
  {
  }

  /** A typical run of efi_main from firmware state `m0`, whose next call,
      handle and pool are numbered n, h and q: the calls of init and of the
      rest, in that order, then only key polls up to the EFI_SUCCESS cold
      reset that `EfiMain` itself promises as the last call. Every pool the run
      allocated is freed and every handle it opened is closed except the root
      load_file2 opened. */
  lemma TypicalRun(env: Env, m0: Machine, n: nat, h: nat, q: nat)
    requires At(m0, n, h, q) && Typical(env, n)
    ensures var r, p := EfiMain(env, m0),
                        m0.trace + [Event.ConInReset(Success)] + StartEvents(env)
                        + OpenLogEvents(env, h) + DevicePathEvents(env, h + 1, q)
                        + [Event.OpenProtocol(env.deviceHandle, FileSystemProtocol, Success)]
                        + LoadEvents(env, h + 2, q + 1) + FinishEvents(env, h + 1, q + 2, SourceBytes(env));
      && |r.trace| > |p| && r.trace[..|p|] == p
      && (forall i :: |p| <= i < |r.trace| - 1 ==> r.trace[i].ReadKeyStroke?)
      && r.live == m0.live && r.open == m0.open + {h + 2}
  {
    InitTypical(env, m0, n, h, q);
    var st := Init(env, m0);
    var t := m0.trace + [Event.ConInReset(Success)] + StartEvents(env)
             + OpenLogEvents(env, h) + DevicePathEvents(env, h + 1, q)
             + [Event.OpenProtocol(env.deviceHandle, FileSystemProtocol, Success)]
             + LoadEvents(env, h + 2, q + 1);
    assert st.m.trace == t;
    FinishTypical(env, st, h + 1, q + 2, SourceBytes(env));
    var r := Finish(env, st);
    assert EfiMain(env, m0) == r;
    RemoveAdded(m0.live, q + 2);
    RemoveFirstAdded(m0.open, h + 1, h + 2);
  }
}

=== FILE: status.dfy ===
/** The EFI_STATUS values the application distinguishes. */
module Status {

  /** EFI_STATUS. `BufferTooSmall` and `Error` have the high bit set
      (EFI_ERROR holds); `Warning` codes are non-zero with the high bit clear. */
  datatype Status = Success | Warning(code: nat) | BufferTooSmall | Error(code: nat)

  /** EFI_ERROR(status). */
  predicate IsError(s: Status)
  {
    s.BufferTooSmall? || s.Error?
  }
}

=== FILE: text.dfy ===
/** Wide (UCS-2) and narrow text: StrLen/strlena, convert_to_ascii, and the
    256-unit line buffers that write_print_info renders into. */
module Text {

  type Char16 = bv16
  type Char8 = bv8

  /** Size, in elements, of both line buffers of write_print_info
      (`CHAR16 buffer[256]` and `char buffer_a[256]`). */
  const LineCapacity: nat := 256

  /** A wide string literal, `L"..."`: each character as one code unit. */
  function L(s: string): (w: seq<Char16>)
    ensures |w| == |s|
  {
    seq(|s|, i requires 0 <= i < |s| => ((s[i] as int) % 0x10000) as Char16)
  }

  /** Index of the first `nul` in `s`: StrLen for wide strings, strlena for
      narrow ones. */
  function NulIndex<C(==)>(s: seq<C>, nul: C): (n: nat)
    requires nul in s
    ensures n < |s| && s[n] == nul
    ensures forall i :: 0 <= i < n ==> s[i] != nul
  {
    if s[0] == nul then 0 else
      assert nul in s[1..] by { var k :| 0 <= k < |s| && s[k] == nul; assert s[1..][k - 1] == nul; }
      1 + NulIndex(s[1..], nul)
  }

  /** The first NUL is the only position that is NUL with no NUL before it. */
  lemma NulIndexIs<C>(s: seq<C>, nul: C, k: nat)
    requires k < |s| && s[k] == nul
    requires forall i :: 0 <= i < k ==> s[i] != nul
    ensures NulIndex(s, nul) == k
  {
  }

  /** The first NUL of a sequence is the first NUL of any prefix holding one. */
  lemma NulIndexPrefix<C>(s: seq<C>, nul: C, k: nat)
    requires k <= |s| && nul in s[..k]
    ensures nul in s && NulIndex(s, nul) == NulIndex(s[..k], nul)
  {
    var n := NulIndex(s[..k], nul);
    assert s[n] == nul;
    forall i | 0 <= i < n
      ensures s[i] != nul
    {
      assert s[..k][i] == s[i];
    }
    NulIndexIs(s, nul, n);
  }

  /** StrLen(wide). */
  function StrLen(w: seq<Char16>): (n: nat)
    requires 0 in w
    ensures n < |w| && w[n] == 0
    ensures forall i :: 0 <= i < n ==> w[i] != 0
  {
    NulIndex(w, 0)
  }

  /** strlena(ascii). */
  function StrLenA(a: seq<Char8>): (n: nat)
    requires 0 in a
    ensures n < |a| && a[n] == 0
    ensures forall i :: 0 <= i < n ==> a[i] != 0
  {
    NulIndex(a, 0)
  }

  /** `(char)(wide & 0xff)`: the low byte of a code unit. */
  function LowByte(c: Char16): Char8
  {
    (c & 0xFF) as Char8
  }

  /** Each code unit truncated to its low byte, in order. */
  function Narrow(w: seq<Char16>): (a: seq<Char8>)
    ensures |a| == |w|
    ensures forall i :: 0 <= i < |w| ==> a[i] == LowByte(w[i])
  {
    if w == [] then [] else [LowByte(w[0])] + Narrow(w[1..])
  }

  /** Each byte zero-extended to a code unit: the inverse of Narrow on the
      single-byte range. */
  function Widen(a: seq<Char8>): (w: seq<Char16>)
    ensures |w| == |a|
    ensures forall i :: 0 <= i < |a| ==> w[i] as int == a[i] as int
  {
    if a == [] then [] else [a[0] as Char16] + Widen(a[1..])
  }

  /** Narrowing undoes widening: no byte is lost. */
  lemma {:induction false} NarrowWiden(a: seq<Char8>)
    ensures Narrow(Widen(a)) == a
  {
    if a != [] {
      NarrowWiden(a[1..]);
      assert LowByte(a[0] as Char16) == a[0];
      assert Widen(a) == [a[0] as Char16] + Widen(a[1..]);
    }
  }

  /** Narrowing loses nothing exactly when every code unit is in the
      single-byte range. */
  lemma NarrowLossless(w: seq<Char16>)
    ensures Widen(Narrow(w)) == w <==> forall i :: 0 <= i < |w| ==> w[i] < 0x100
  {
    if forall i :: 0 <= i < |w| ==> w[i] < 0x100 {
      forall i | 0 <= i < |w|
        ensures Widen(Narrow(w))[i] == w[i]
      {
        assert (w[i] & 0xFF) == w[i];
      }
    }
    if Widen(Narrow(w)) == w {
      forall i | 0 <= i < |w|
        ensures w[i] < 0x100
      {
        assert w[i] as int == LowByte(w[i]) as int;
      }
    }
  }

  /** The byte count write_print_info hands to Write: strlena of the narrowed
      line. It stops at the first code unit whose low byte is zero, so it is
      at most the wide length, and equal to it exactly when no code unit has a
      zero low byte. */
  lemma NarrowedLength(w: seq<Char16>)
    ensures 0 in Narrow(w) + [0]
    ensures StrLenA(Narrow(w) + [0]) <= |w|
    ensures StrLenA(Narrow(w) + [0]) == |w| <==> forall i :: 0 <= i < |w| ==> LowByte(w[i]) != 0
    ensures forall i :: 0 <= i < StrLenA(Narrow(w) + [0]) ==> LowByte(w[i]) != 0
  {
    var a := Narrow(w) + [0];
    assert a[|w|] == 0;
    var n := StrLenA(a);
    if n < |w| {
      assert LowByte(w[n]) == a[n] == 0;
    }
    forall i | 0 <= i < n
      ensures LowByte(w[i]) != 0
    {
      assert a[i] == LowByte(w[i]);
    }
  }

  /** convert_to_ascii(ascii, wide): copies the low byte of each of the
      StrLen(wide) code units into `ascii`, then a NUL; nothing past that NUL
      is written. The caller must provide StrLen(wide) + 1 bytes. */
  method ConvertToAscii(ascii: array<Char8>, wide: array<Char16>)
    requires 0 in wide[..]
    requires StrLen(wide[..]) < ascii.Length
    modifies ascii
    ensures forall i :: 0 <= i < StrLen(wide[..]) ==> ascii[i] == LowByte(wide[i])
    ensures ascii[StrLen(wide[..])] == 0
    ensures forall i :: StrLen(wide[..]) < i < ascii.Length ==> ascii[i] == old(ascii[i])
    ensures ascii[..StrLen(wide[..]) + 1] == Narrow(wide[..StrLen(wide[..])]) + [0]
  {
    var size := StrLen(wide[..]);
    for i := 0 to size
      invariant forall j :: 0 <= j < i ==> ascii[j] == LowByte(wide[j])
      invariant forall j :: size <= j < ascii.Length ==> ascii[j] == old(ascii[j])
    {
      ascii[i] := LowByte(wide[i]);
    }
    ascii[size] := 0;
    assert ascii[..size + 1] == Narrow(wide[..size]) + [0];
  }

  /** A format string of the shape `before%safter`, the only shape the
      application passes to SPrint. */
  datatype Template = Template(before: seq<Char16>, after: seq<Char16>)

  /** The wide string a `CHAR16*` argument points to: up to its first NUL. */
  function Arg(param: seq<Char16>): (a: seq<Char16>)
    ensures 0 !in a && |a| <= |param| && a == param[..|a|]
    ensures |a| == |param| || param[|a|] == 0
    ensures 0 !in param ==> a == param
  {
    if 0 in param then
      assert forall i :: 0 <= i < StrLen(param) ==> param[..StrLen(param)][i] == param[i];
      param[..StrLen(param)]
    else param
  }

  /** The text `%s` formatting produces, before any capacity cut. */
  function Format(t: Template, param: seq<Char16>): seq<Char16>
  {
    t.before + Arg(param) + t.after
  }

  /** strlena of a buffer that convert_to_ascii filled from `line` is strlena
      of the narrowed line, and the bytes before it are the narrowed line's. */
  lemma StrLenAOfConverted(ascii: seq<Char8>, line: seq<Char16>)
    requires |line| < |ascii| && ascii[|line|] == 0
    requires forall i :: 0 <= i < |line| ==> ascii[i] == LowByte(line[i])
    ensures 0 in ascii && 0 in Narrow(line) + [0]
    ensures StrLenA(ascii) == StrLenA(Narrow(line) + [0]) <= |line|
    ensures ascii[..StrLenA(ascii)] == Narrow(line)[..StrLenA(ascii)]
  {
    var a := Narrow(line) + [0];
    assert a[|line|] == 0;
    var n := NulIndex(ascii, 0);
    assert n <= |line|;
    forall i | 0 <= i < n
      ensures a[i] != 0 && ascii[i] == Narrow(line)[i]
    {
    }
    assert a[n] == 0;
    NulIndexIs(a, 0, n);
  }

  /** What SPrint(buffer, capacity, ...) leaves before the NUL it writes: the
      formatted text cut at its own first NUL and at `capacity - 1` units. */
  function SPrintText(text: seq<Char16>, capacity: nat): (t: seq<Char16>)
    requires capacity > 0
    ensures |t| < capacity && 0 !in t
    ensures |t| <= |text| && t == text[..|t|]
    ensures 0 !in text ==> |t| == if |text| < capacity then |text| else capacity - 1
  {
    var n := NulIndex(text + [0], 0);
    assert forall i :: 0 <= i < n ==> text[i] == (text + [0])[i];
    assert 0 !in text ==> n == |text| by {
      if 0 !in text { NulIndexIs(text + [0], 0, |text|); }
    }
    text[..if n < capacity then n else capacity - 1]
  }

  /** The line as write_print_info builds it: SPrint into the whole 256-unit
      buffer, then StrCat of the line terminator. */
  function AsWrittenLine(text: seq<Char16>, suffix: seq<Char16>): (line: seq<Char16>)
    ensures |suffix| <= |line| && |line| - |suffix| <= |text| && |line| - |suffix| < LineCapacity
    ensures line[|line| - |suffix|..] == suffix
    ensures line[..|line| - |suffix|] == text[..|line| - |suffix|]
  {
    SPrintText(text, LineCapacity) + suffix
  }

  /** With a non-empty terminator, the line and its NUL fit the buffer only
      when the formatted text leaves room for the terminator: a formatted text
      of 254 or more units and a CR LF terminator overrun the 256-unit buffer. */
  lemma AsWrittenLineOverruns(text: seq<Char16>, suffix: seq<Char16>)
    requires 0 !in text && suffix != []
    ensures |AsWrittenLine(text, suffix)| + 1 <= LineCapacity <==> |text| + |suffix| < LineCapacity
    ensures |text| >= 254 && |suffix| == 2 ==> |AsWrittenLine(text, suffix)| + 1 > LineCapacity
  {
  }

  /** The line rendered so that its terminator always fits: SPrint is given
      the capacity that StrCat leaves free. */
  function RenderLine(text: seq<Char16>, suffix: seq<Char16>): (line: seq<Char16>)
    requires 0 !in suffix && |suffix| < LineCapacity
    ensures |line| < LineCapacity && 0 !in line
    ensures |suffix| <= |line| <= |text| + |suffix|
    ensures line[|line| - |suffix|..] == suffix
    ensures line[..|line| - |suffix|] == text[..|line| - |suffix|]
    ensures 0 !in text && |text| + |suffix| < LineCapacity ==> line == text + suffix
  {
    var t := SPrintText(text, LineCapacity - |suffix|);
    assert (t + suffix)[..|t|] == t;
    t + suffix
  }

  /** SPrint followed by StrCat into the wide line buffer: afterwards the
      buffer holds RenderLine(text, suffix) and a NUL. */
  method SPrintLine(buf: array<Char16>, text: seq<Char16>, suffix: seq<Char16>)
    requires buf.Length == LineCapacity
    requires 0 !in suffix && |suffix| < LineCapacity
    modifies buf
    ensures 0 in buf[..]
    ensures buf[..StrLen(buf[..])] == RenderLine(text, suffix)
  {
    var line := RenderLine(text, suffix);
    forall i | 0 <= i < |line| {
      buf[i] := line[i];
    }
    buf[|line|] := 0;
    assert buf[..][|line|] == 0;
    NulIndexIs(buf[..], 0, |line|);
    assert buf[..|line|] == line;
  }
}
